=== FILE: README.md ===
# No Gravity Elements component generator, in Dafny

This project models the component generator of the No Gravity Elements
monorepo and the pure helpers of its bundler configuration.

- **`text.dfy`, module `Text`.** The character classes the regular
  expressions use: ASCII `[a-z]`/`[A-Z]` and the JavaScript `\s` set. It
  also holds ASCII lower-casing, and `Contains` (`String.prototype.includes`)
  with its infix lemmas.
- **`kebab.dfy`, module `KebabCase`.** `getKebabCase` is modelled as its
  three passes:
  - `Hyphenate` inserts `-` between a lower-case and an upper-case letter. It
    is the global `replace` of `([a-z])([A-Z])`, written as the scan the
    regular expression engine performs, where a match consumes both letters.
  - `CollapseSeparators` turns each maximal run of whitespace or `_` into one
    `-`.
  - `LowerAscii` lower-cases the result.

  The first two passes are proved equal to independent reference
  definitions: one inserts `-` at every lower/upper boundary, the other reads
  the input one character at a time. The third pass is specified by
  `LowerChar`'s contract and by `LowerAsciiFixedPoints`. The module also
  characterises the fixed points of each pass and proves the three
  kebab-case examples of the test suite. The entry point keeps its own copy
  of `getKebabCase` (`index.ts:9-14`). Its text is identical, so
  `KebabCase.Kebab` models both.
- **`templates.dfy`, module `Templates`.** The file templates of
  `helpers.ts`, byte for byte for ASCII names (see `Text.LowerAscii` under
  "## Left out"). A template is a list of literal pieces and
  parameter slots, filled from the component's name, kebab-case name and
  type. Contracts state what each generated file contains. Injectivity
  lemmas show that the name can be read back from the file.
- **`generator.dfy`, module `Generator`.** The entry point `main` of
  `index.ts`, with its own package.json, story and register templates. A run
  over `process.argv` becomes an `Outcome`:
  - a usage error, with the message `errorMessage` prints before exiting;
  - or the ordered list of `mkdir`/`writeFile` actions. Each action names its
    path as a list of segments, and the template and arguments of its
    content.

  The entry point's own component, ignore-file and types templates
  (`index.ts:16-32`, `index.ts:63-68`) have the same text as those of
  `helpers.ts`, so the plan uses the `Templates` versions.
- **`build_config.dfy`, module `BuildConfig`.** The helpers of
  `esbuild.config.js`:
  - `findCommonPath`, as a loop method proved equal to a fold of pairwise
    longest common prefixes;
  - `getToolPath`;
  - the options `getCommonOps` builds;
  - the filter that drops `.spec.ts` paths.

Where the code differs from what its comments or its test suite suggest, the
model follows the code:

- A run with a valid `--type` and no `--name` flag does nothing and reports
  no error (`index.ts:117`), although the comment at `index.ts:113` says the
  flag is checked.
- The entry point writes `register.ts`. It does not write the unit-test and
  integration-test files, which are still TODOs at `index.ts:172-173`, and it
  never writes a stylesheet. The helper templates for those files are
  modelled on their own.

## Model

| member | source | states |
|---|---|---|
| Text.LowerAscii | packages/tools/component-generator/src/helpers.ts:10 | lower-casing keeps the length and maps each character on its own: ASCII upper-case letters to lower case, everything else unchanged |
| Text.LowerAsciiFixedPoints | packages/tools/component-generator/src/helpers.ts:10 | lowered text has no upper-case letter, and lowering leaves a string unchanged exactly when it had none |
| KebabCase.Hyphenate | packages/tools/component-generator/src/helpers.ts:8 | the first pass keeps the first and the last character of its input |
| KebabCase.HyphenateLeavesNoBoundary | packages/tools/component-generator/src/helpers.ts:8 | after the global replace no lower-case letter is directly followed by an upper-case one |
| KebabCase.HyphenateInsertsAtEveryBoundary | packages/tools/component-generator/src/helpers.ts:8 | the left-to-right regex scan, whose matches consume two letters, equals inserting `-` at every lower/upper boundary of the input |
| KebabCase.HyphenateFixedPoints | packages/tools/component-generator/src/helpers.ts:8 | the first pass changes a string exactly when it has a lower/upper boundary |
| KebabCase.HyphenateAppend | packages/tools/component-generator/src/helpers.ts:8 | the first pass distributes over concatenation, with a `-` added exactly at a boundary across the junction |
| KebabCase.DropSeparators | packages/tools/component-generator/src/helpers.ts:9 | skipping a run of `[\s_]` removes a prefix made only of separators and stops at a non-separator |
| KebabCase.CollapseSeparators | packages/tools/component-generator/src/helpers.ts:9 | the second pass leaves no whitespace or `_` and never lengthens its input |
| KebabCase.CollapseMatchesRunStarts | packages/tools/component-generator/src/helpers.ts:9 | the greedy `[\s_]+` replace equals a per-character reference that writes `-` for the first separator of each run and drops the rest |
| KebabCase.CollapseFixedPoints | packages/tools/component-generator/src/helpers.ts:9 | the second pass changes a string exactly when it contains a separator |
| KebabCase.CollapseAppend | packages/tools/component-generator/src/helpers.ts:9 | the second pass distributes over concatenation when no separator run straddles the junction |
| KebabCase.RunStartsAppend | packages/tools/component-generator/src/helpers.ts:9 | the per-character reading of the second pass splits at any junction, the part after it starting inside a run exactly when the part before ends in a separator |
| KebabCase.Kebab | packages/tools/component-generator/src/helpers.ts:6-11 | a kebab-case name has no upper-case letter and no whitespace or `_` |
| KebabCase.KebabFixedPoints | packages/tools/component-generator/src/helpers.ts:6-11 | a string is its own kebab-case form exactly when it has no upper-case letter and no separator |
| KebabCase.KebabIdempotent | packages/tools/component-generator/src/helpers.ts:6-11 | converting twice gives the same as converting once |
| KebabCase.KebabOfPlainWord | packages/tools/component-generator/src/helpers.ts:6-11 | a word without boundaries or separators is only lower-cased |
| KebabCase.KebabAppendCapitalised | packages/tools/component-generator/src/helpers.ts:6-11 | appending a capitalised word after a lower-case letter appends `-` and the lowered word |
| KebabCase.KebabAppendAfterSeparators | packages/tools/component-generator/src/helpers.ts:6-11 | a word after a run of separators is appended after one `-`, lowered |
| KebabCase.KebabOfTwoWords | packages/tools/component-generator/src/helpers.ts:6-11 | a word ending in a lower-case letter followed by a capitalised word becomes both words lowered, joined by `-` |
| KebabCase.KebabOfSnakeWords | packages/tools/component-generator/src/helpers.ts:6-11 | two words around one `_` become both words lowered, joined by `-` |
| KebabCase.KebabOfHelloWorld | packages/tools/component-generator/src/helpers.ts:6-11 | `helloWorld` becomes `hello-world` |
| KebabCase.KebabOfPascalCase | packages/tools/component-generator/src/tests/helpers.spec.ts:34 | `HelloWorld` becomes `hello-world` |
| KebabCase.KebabOfSnakeCase | packages/tools/component-generator/src/tests/helpers.spec.ts:35 | `hello_world` becomes `hello-world` |
| KebabCase.KebabOfCamelCase | packages/tools/component-generator/src/tests/helpers.spec.ts:36 | `helloWorldTest` becomes `hello-world-test` |
| Templates.ComponentTemplate | packages/tools/component-generator/src/helpers.ts:13-27 | the component file declares `FunctionComponent<NameProps>`, renders `<Fragment></Fragment>` and ends with `export default Name;` followed by a newline |
| Templates.ComponentTemplateInjective | packages/tools/component-generator/src/helpers.ts:13-27 | different component names give different component files |
| Templates.GitIgnoreTemplate | packages/tools/component-generator/src/helpers.ts:29-31 | the ignore file is exactly `lib`: one non-empty folder, and it is the folder of the package's `main` and `typings` files |
| Templates.PackageJsonTemplate | packages/tools/component-generator/src/helpers.ts:33-65 | package.json names the package `@no-gravity-elements/<kebab>` and points `main` at `lib/index.js` and `typings` at `lib/index.d.ts` |
| Templates.PackageJsonTemplateInjective | packages/tools/component-generator/src/helpers.ts:35 | different kebab-case names give different package.json files |
| Templates.TypesTemplate | packages/tools/component-generator/src/helpers.ts:67-72 | the types file declares `interface NameProps` |
| Templates.TypesTemplateInjective | packages/tools/component-generator/src/helpers.ts:67-72 | different component names give different types files |
| Templates.StoryTemplate | packages/tools/component-generator/src/helpers.ts:74-119 | the story imports the package by its scoped name, is titled `type/Name`, and uses `nge-<kebab>` as component, tag name and rendered element |
| Templates.UnitTestsTemplate | packages/tools/component-generator/src/helpers.ts:121-136 | the unit test describes `Name` and shallow-renders `<Name x='test'>Test</Name>` |
| Templates.IntegrationTestsTemplate | packages/tools/component-generator/src/helpers.ts:138-156 | the integration test is named `Name`, visits story id `type-<lowered name>--default`, and checks for `<nge-<kebab>>` with `cy.get('nge-<kebab>')` |
| Templates.ScssTemplate | packages/tools/component-generator/src/helpers.ts:158-164 | the stylesheet imports the base variables and styles `:host` |
| Generator.PackageJsonTemplate | packages/tools/component-generator/src/index.ts:34-61 | the entry point's package.json has the same name, `main` and `typings` entries |
| Generator.PackageJsonTemplatesDiffer | packages/tools/component-generator/src/index.ts:34-61 | the entry point's package.json is the helper module's with the `files` field removed, and nothing else differs |
| Generator.PackageJsonTemplateInjective | packages/tools/component-generator/src/index.ts:36 | different kebab-case names give different package.json files |
| Generator.StoryTemplate | packages/tools/component-generator/src/index.ts:70-87 | the entry point's story is titled `My Name`, sets tag name `nge-<kebab>` and renders `<nge-<kebab> />` |
| Generator.RegisterTemplate | packages/tools/component-generator/src/index.ts:89-98 | the register file imports the component from `./Name` and registers it as `nge-<kebab>` with a shadow root |
| Generator.TagName | packages/tools/component-generator/src/index.ts:96 | the registered element name starts with `nge-` and has no upper-case letter or whitespace |
| Generator.IndexOf | packages/tools/component-generator/src/index.ts:102 | `indexOf` is -1 exactly when the flag is absent, and otherwise the position of its first occurrence |
| Generator.RunWithoutTypeFlag | packages/tools/component-generator/src/index.ts:102-111 | a run fails with the missing-flag message exactly when `--type` is absent |
| Generator.RunWithoutTypeValue | packages/tools/component-generator/src/index.ts:105-108 | `--type` with an empty or missing value fails with the missing-type message, whatever else is given |
| Generator.TypeFlagLast | packages/tools/component-generator/src/index.ts:107-108 | `--type` as the last argument fails with the missing-type message |
| Generator.RunWithoutNameFlag | packages/tools/component-generator/src/index.ts:114-117 | a run does nothing without error exactly when the type is valid and `--name` is absent |
| Generator.RunWithoutNameValue | packages/tools/component-generator/src/index.ts:117-120 | with a valid type, `--name` without a value fails with the missing-name message |
| Generator.RunPlansComponent | packages/tools/component-generator/src/index.ts:100-175 | a run creates files exactly when both flags have non-empty values, and then it creates the plan for those values |
| Generator.IndexOfAfter | packages/tools/component-generator/src/index.ts:114-119 | a flag placed after arguments that lack it is found there, and its value is the next argument, or empty at the end |
| Generator.TwoFlags | packages/tools/component-generator/src/index.ts:102-119 | two adjacent flag/value pairs are both read back |
| Generator.RunDependsOnFlagsOnly | packages/tools/component-generator/src/index.ts:100-175 | two argument vectors with the same flags and flag values give the same outcome |
| Generator.RunIgnoresFlagOrder | packages/tools/component-generator/src/index.ts:102-119 | giving `--name` before `--type` gives the same outcome |
| Generator.PlanIsFeasible | packages/tools/component-generator/src/index.ts:122-171 | given only the type's folder, every action's parent exists when it runs, and no folder is created twice or over an existing one |
| Generator.PlanWritesDistinctFiles | packages/tools/component-generator/src/index.ts:133-171 | no file is written twice |
| Generator.PlanStaysInComponentDir | packages/tools/component-generator/src/index.ts:122-171 | every action's path lies inside `packages/components/<type>/<name>` |
| Generator.PlanShape | packages/tools/component-generator/src/index.ts:122-171 | the component folder is created first, then six files are written in the awaited order, and `types` is created before `types/index.ts` |
| Generator.PlanContents | packages/tools/component-generator/src/index.ts:128-171 | each write carries its own template: the component, ignore-file and types templates from the name, package.json from the kebab-case name, the story and the register file from both |
| Generator.PackageFileFromKebab | packages/tools/component-generator/src/index.ts:147-154 | package.json is written into the component folder from the kebab-case name, which has no upper-case letter, whitespace or `_` |
| Generator.StoryFileUsesTagName | packages/tools/component-generator/src/index.ts:161-167 | `Name.stories.tsx` is written from the name and kebab-case name, and its story (`index.ts:80`, `index.ts:85`) sets `tagName` to the quoted element name `TagName(name)` and renders that element |
| Generator.StoryFileText | packages/tools/component-generator/src/index.ts:166-167 | the story write is rendered with the entry point's own two-argument story template (`index.ts:70-87`), so the text written sets `tagName` to the quoted element name |
| Generator.RegisterFileUsesTagName | packages/tools/component-generator/src/index.ts:168-171 | `register.ts` is written from the name and kebab-case name, and registers the component under the quoted element name `TagName(name)` (`index.ts:96`) |
| BuildConfig.Split | esbuild.config.js:7 | splitting on `/` gives at least one segment, no segment contains `/`, and joining the segments gives back the input |
| BuildConfig.SplitJoin | esbuild.config.js:20-23 | splitting a join of `/`-free segments gives the segments back |
| BuildConfig.JoinAppend | esbuild.config.js:23 | joining two non-empty lists puts one `/` between their joins |
| BuildConfig.Render | esbuild.config.js:11 | the accumulated prefix is empty exactly when no segment was added, and otherwise ends with `/` |
| BuildConfig.RenderIsJoin | esbuild.config.js:11 | a non-empty segment list accumulates to its join followed by `/` |
| BuildConfig.Lcp | esbuild.config.js:8-15 | the pairwise common prefix is a prefix of both lists and stops at their first difference |
| BuildConfig.CommonSegments | esbuild.config.js:4-17 | the reference common prefix is a prefix of every path's segment list |
| BuildConfig.CommonSegmentsGreatest | esbuild.config.js:4-17 | every common prefix of the segment lists is a prefix of the reference, which is therefore the longest |
| BuildConfig.CommonSegmentsUnique | esbuild.config.js:10-14 | a common prefix that the first path's next segment does not extend is the longest one |
| BuildConfig.FindCommonPath | esbuild.config.js:4-17 | the scan returns the longest common segment prefix of the paths, each segment followed by `/` |
| BuildConfig.CommonPathEndsWithSeparator | esbuild.config.js:11 | the common path is empty or ends with `/` |
| BuildConfig.CommonPathIsPrefix | esbuild.config.js:11 | the common path is a prefix of `p/` for every input path `p` |
| BuildConfig.CommonPathOfOne | esbuild.config.js:7-16 | a single path `p` gives `p/` |
| BuildConfig.CommonPathStopsAtMismatch | esbuild.config.js:10-14 | the result stops at the first position where the paths disagree |
| BuildConfig.CommonPathPartsAfterFirst | esbuild.config.js:10-14 | `a/b/c` and `a/x/c` with `b` different from `x` give `a/`: agreement after a mismatch adds nothing |
| BuildConfig.CommonPathOrderIndependent | esbuild.config.js:7-16 | the result depends only on which paths are given, not on their order or repetitions |
| BuildConfig.ToolPath | esbuild.config.js:19-25 | the tool path is empty when the path has at most two segments; otherwise the path is the tool path, `/`, and its last two segments |
| BuildConfig.ToolPathSegments | esbuild.config.js:19-25 | the tool path's segments are the path's segments without the last two |
| BuildConfig.ToolPathIsPrefix | esbuild.config.js:19-25 | the tool path is a prefix of the path, and, with three or more segments, so is the tool path followed by `/` |
| BuildConfig.ToolPathOfJoin | esbuild.config.js:19-25 | dropping the last two segments of a join of `/`-free segments joins the others |
| BuildConfig.ToolPathOfEntry | esbuild.config.js:19-25 | `packages/tools/<tool>/src/index.ts` gives `packages/tools/<tool>` |
| BuildConfig.Outdir | esbuild.config.js:33-36 | the output folder, the tool path of a single entry point or the common path of several, is a prefix of every `path/`, and ends with `/` when there are several paths |
| BuildConfig.CommonOps | esbuild.config.js:27-46 | the entry points are the given paths and the output folder contains them all; bundling and minifying are on, source maps off, overwriting allowed, no plugins |
| BuildConfig.WithoutSpecs | esbuild.config.js:50 | a path is kept exactly when it is an input path that does not contain `.spec.ts` |
| BuildConfig.WithoutSpecsAppend | esbuild.config.js:50 | the filter distributes over concatenation, so kept paths keep their order |
| BuildConfig.WithoutSpecsIdempotent | esbuild.config.js:50 | filtering twice is filtering once |

## Left out

- File-system effects are not performed. `fsp.mkdir` and `fsp.writeFile`
  become `Generator.Action` values in awaited order. A write's content is a
  `Generator.Content` descriptor naming the template and its arguments, and
  `Generator.ContentText` renders it. The UTF-8 encoding option is not
  modelled.
- `errorMessage`: the `console.error` output and the `process.exit(1)` call
  are I/O. They are modelled as the outcome `UsageError(message)`, after
  which nothing else happens.
- Generator.ComponentDir: `path.join` normalisation is not modelled. Paths
  are lists of segments, so `.`/`..` segments or a name containing `/` are
  kept as they are.
- The mkdir failure on an existing component folder is not modelled; the
  source marks it as a TODO at `index.ts:130`. `Generator.PlanIsFeasible`
  states the conditions under which no such failure occurs.
- Text.LowerAscii: lowers ASCII letters only. `toLocaleLowerCase` and
  `toLowerCase` also lower non-ASCII letters, and the former depends on the
  locale, which is not modelled.
- KebabCase.Kebab: inherits the ASCII-only lowering of `Text.LowerAscii`.
  `[a-z]` and `[A-Z]` are ASCII in the source as well, so the first pass is
  exact.
- A missing element after a flag (`undefined` in JavaScript) is modelled as
  the empty string. The source only tests its truthiness.
- Templates.StoryTemplate, Templates.IntegrationTestsTemplate: the function
  bodies produce the exact text for ASCII names; the story id of the
  integration tests is lowered as `Text.LowerAscii` describes. The contracts state the lines the test
  suite and the generated project rely on, not the whole text.
- `createFile` is imported by the test suite, but its definition is not part
  of this model. So are `scripts/watch.js`, which is a file watcher spawning
  processes, and the `esbuild.build` and `tiny-glob` calls of
  `esbuild.config.js:48-54`.
- Three test expectations do not match the code, and the model follows the
  code:
  - `helpers.spec.ts:47` expects typings `lib/index.ts`, but the template
    writes `lib/index.d.ts`.
  - `helpers.spec.ts:92` and `helpers.spec.ts:116` call the story and
    integration templates with two arguments instead of three.
- BuildConfig.FindCommonPath, BuildConfig.Outdir, BuildConfig.CommonOps: an empty path list makes
  the source throw on `substrings[0]`. The model requires a non-empty list
  instead of modelling the crash.
- BuildConfig.CommonOps: the constant options are stored as given. Their
  meaning to the bundler is not modelled.

=== FILE: build_config.dfy ===
/**
 The pure helpers of the bundler configuration: splitting and joining paths on
 `/`, the longest common directory prefix of the tool entry points, the tool
 directory of a single entry point, the build options and the filter that
 drops test files from the entry points.
 */
module BuildConfig {
  import opened Text

  const Separator: char := '/'

  /** The marker that excludes a path from the entry points. */
  const SpecMarker: string := ".spec.ts"

  /** String.prototype.split on `/`: the text between consecutive separators;
      there is always at least one segment, and joining them back gives `s`. */
  function Split(s: string): (r: seq<string>)
    ensures |r| > 0
    ensures forall i :: 0 <= i < |r| ==> Separator !in r[i]
    ensures Join(r) == s
    decreases |s|
  {
    if |s| == 0 then [""]
    else
      var rest := Split(s[1..]);
      if s[0] == Separator then
        assert s == [Separator] + s[1..];
        [""] + rest
      else
        var r := [[s[0]] + rest[0]] + rest[1..];
        assert r[1..] == rest[1..];
        assert s == [s[0]] + s[1..];
        r
  }

  /** Array.prototype.join with `/`. */
  function Join(ss: seq<string>): string
    decreases |ss|
  {
    if |ss| == 0 then ""
    else if |ss| == 1 then ss[0]
    else ss[0] + [Separator] + Join(ss[1..])
  }

  predicate NoSeparators(ss: seq<string>) {
    forall i :: 0 <= i < |ss| ==> Separator !in ss[i]
  }

  /** A segment followed by a separator splits off as one segment. */
  lemma {:induction false} SplitAfterSegment(a: string, t: string)
    requires Separator !in a
    ensures Split(a + [Separator] + t) == [a] + Split(t)
    decreases |a|
  {
    var s := a + [Separator] + t;
    if |a| == 0 {
      assert s[1..] == t;
    } else {
      assert s[1..] == a[1..] + [Separator] + t;
      SplitAfterSegment(a[1..], t);
      assert [a[0]] + a[1..] == a;
    }
  }

  /** Text without a separator is a single segment. */
  lemma {:induction false} SplitOfSegment(a: string)
    requires Separator !in a
    ensures Split(a) == [a]
    decreases |a|
  {
    if |a| > 0 {
      SplitOfSegment(a[1..]);
      assert [a[0]] + a[1..] == a;
    }
  }

  /** Splitting undoes joining, for a non-empty list of separator-free
      segments (the other direction is part of the contract of `Split`). */
  lemma {:induction false} SplitJoin(ss: seq<string>)
    requires |ss| > 0 && NoSeparators(ss)
    ensures Split(Join(ss)) == ss
    decreases |ss|
  {
    if |ss| == 1 {
      SplitOfSegment(ss[0]);
    } else {
      assert Separator !in ss[0];
      SplitAfterSegment(ss[0], Join(ss[1..]));
      SplitJoin(ss[1..]);
      assert [ss[0]] + ss[1..] == ss;
    }
  }

  /** Joining two non-empty lists puts one separator between their joins. */
  lemma {:induction false} JoinAppend(xs: seq<string>, ys: seq<string>)
    requires |xs| > 0 && |ys| > 0
    ensures Join(xs + ys) == Join(xs) + [Separator] + Join(ys)
    decreases |xs|
  {
    if |xs| == 1 {
      assert (xs + ys)[1..] == ys;
    } else {
      assert (xs + ys)[1..] == xs[1..] + ys;
      JoinAppend(xs[1..], ys);
    }
  }

  /** Each segment followed by a separator: the text the bundler accumulates
      for a run of common segments. */
  function Render(c: seq<string>): (r: string)
    ensures r == "" <==> |c| == 0
    ensures |c| > 0 ==> r[|r| - 1] == Separator
    decreases |c|
  {
    if |c| == 0 then "" else c[0] + [Separator] + Render(c[1..])
  }

  lemma {:induction false} RenderAppend(c: seq<string>, x: string)
    ensures Render(c + [x]) == Render(c) + x + [Separator]
    decreases |c|
  {
    if |c| > 0 {
      assert (c + [x])[1..] == c[1..] + [x];
      RenderAppend(c[1..], x);
    } else {
      assert (c + [x])[1..] == [];
    }
  }

  /** For a non-empty list the rendering is the join plus a trailing separator. */
  lemma {:induction false} RenderIsJoin(ss: seq<string>)
    requires |ss| > 0
    ensures Render(ss) == Join(ss) + [Separator]
    decreases |ss|
  {
    if |ss| > 1 {
      RenderIsJoin(ss[1..]);
    }
  }

  /** A prefix of segments renders to a prefix of the text. */
  lemma {:induction false} RenderPrefix(c: seq<string>, ss: seq<string>)
    requires IsPrefix(c, ss)
    ensures IsPrefix(Render(c), Render(ss))
    decreases |c|
  {
    if |c| > 0 {
      assert c[1..] == ss[1..][..|c| - 1];
      RenderPrefix(c[1..], ss[1..]);
      assert c[0] == ss[0];
    }
  }

  lemma PrefixTransitive<T>(a: seq<T>, b: seq<T>, c: seq<T>)
    requires IsPrefix(a, b) && IsPrefix(b, c)
    ensures IsPrefix(a, c)
  {
    assert c[..|a|] == c[..|b|][..|a|];
  }

  /** Two prefixes of one list are ordered by length. */
  lemma PrefixesOrdered<T>(a: seq<T>, b: seq<T>, s: seq<T>)
    requires IsPrefix(a, s) && IsPrefix(b, s) && |a| <= |b|
    ensures IsPrefix(a, b)
  {
    assert b[..|a|] == s[..|b|][..|a|];
  }

  /** The longest common prefix of two segment lists. */
  function Lcp(a: seq<string>, b: seq<string>): (r: seq<string>)
    ensures IsPrefix(r, a) && IsPrefix(r, b)
    ensures |r| < |a| && |r| < |b| ==> a[|r|] != b[|r|]
    decreases |a|
  {
    if |a| == 0 || |b| == 0 || a[0] != b[0] then []
    else
      var rest := Lcp(a[1..], b[1..]);
      assert ([a[0]] + rest)[1..] == rest;
      [a[0]] + rest
  }

  /** Every common prefix of two lists is a prefix of their longest one. */
  lemma LcpGreatest(q: seq<string>, a: seq<string>, b: seq<string>)
    requires IsPrefix(q, a) && IsPrefix(q, b)
    ensures IsPrefix(q, Lcp(a, b))
  {
    var r := Lcp(a, b);
    if |q| > |r| {
      assert false;
    }
    PrefixesOrdered(q, r, a);
  }

  /** `c` is a prefix of every list in `segs`. */
  predicate CommonPrefix(c: seq<string>, segs: seq<seq<string>>) {
    forall j :: 0 <= j < |segs| ==> IsPrefix(c, segs[j])
  }

  /** The longest common prefix of all the lists, as a fold of the pairwise
      one: the reference the bundler's scan is measured against. */
  function CommonSegments(segs: seq<seq<string>>): (c: seq<string>)
    requires |segs| > 0
    ensures CommonPrefix(c, segs)
    decreases |segs|
  {
    if |segs| == 1 then segs[0]
    else
      var rest := CommonSegments(segs[1..]);
      var c := Lcp(segs[0], rest);
      assert forall j :: 1 <= j < |segs| ==> IsPrefix(c, segs[j]) by {
        forall j | 1 <= j < |segs| ensures IsPrefix(c, segs[j]) {
          assert IsPrefix(rest, segs[1..][j - 1]);
          PrefixTransitive(c, rest, segs[j]);
        }
      }
      c
  }

  /** Every common prefix is a prefix of `CommonSegments`: it is the longest. */
  lemma {:induction false} CommonSegmentsGreatest(q: seq<string>, segs: seq<seq<string>>)
    requires |segs| > 0 && CommonPrefix(q, segs)
    ensures IsPrefix(q, CommonSegments(segs))
    decreases |segs|
  {
    if |segs| > 1 {
      assert CommonPrefix(q, segs[1..]) by {
        forall j | 0 <= j < |segs[1..]| ensures IsPrefix(q, segs[1..][j]) {
          assert segs[1..][j] == segs[j + 1];
        }
      }
      CommonSegmentsGreatest(q, segs[1..]);
      assert IsPrefix(q, segs[0]);
      LcpGreatest(q, segs[0], CommonSegments(segs[1..]));
    }
  }

  /** Every list has segment `x` at position `i` (the `every` test of the
      scan; a list too short to have position `i` fails it). */
  predicate Every(segs: seq<seq<string>>, i: nat, x: string) {
    forall j :: 0 <= j < |segs| ==> i < |segs[j]| && segs[j][i] == x
  }

  /** A common prefix of `segs` that the next segment of the first list does
      not extend is the longest common prefix. */
  lemma CommonSegmentsUnique(segs: seq<seq<string>>, c: seq<string>)
    requires |segs| > 0 && CommonPrefix(c, segs)
    requires |c| == |segs[0]| || !Every(segs, |c|, segs[0][|c|])
    ensures c == CommonSegments(segs)
  {
    var g := CommonSegments(segs);
    CommonSegmentsGreatest(c, segs);
    LongerCommonPrefix(segs, c, g);
  }

  /** A common prefix longer than its own prefix `c` shows that every list
      has the first list's segment after `c`. */
  lemma LongerCommonPrefix(segs: seq<seq<string>>, c: seq<string>, g: seq<string>)
    requires |segs| > 0 && CommonPrefix(g, segs) && IsPrefix(c, g)
    ensures |g| > |c| ==> |c| < |segs[0]| && Every(segs, |c|, segs[0][|c|])
  {
    if |g| > |c| {
      assert IsPrefix(g, segs[0]) && segs[0][|c|] == g[|c|];
      forall j | 0 <= j < |segs| ensures |c| < |segs[j]| && segs[j][|c|] == segs[0][|c|] {
        assert IsPrefix(g, segs[j]) && segs[j][|c|] == g[|c|];
      }
    }
  }

  /** The segment lists of the paths. */
  function Segments(paths: seq<string>): (segs: seq<seq<string>>)
    ensures |segs| == |paths|
    ensures forall j :: 0 <= j < |paths| ==> segs[j] == Split(paths[j])
  {
    seq(|paths|, j requires 0 <= j < |paths| => Split(paths[j]))
  }

  /** The common directory of the paths: their longest common segment prefix,
      each segment followed by a separator. */
  function CommonPath(paths: seq<string>): string
    requires |paths| > 0
  {
    Render(CommonSegments(Segments(paths)))
  }

  /** The scan of the bundler configuration: walk the segments of the first
      path and append each one that every path has at the same position,
      stopping at the first that some path lacks. */
  method FindCommonPath(paths: seq<string>) returns (common: string)
    requires |paths| > 0
    ensures common == CommonPath(paths)
  {
    var substrings := Segments(paths);
    var first := substrings[0];
    common := "";
    var i := 0;
    while i < |first|
      invariant 0 <= i <= |first|
      invariant CommonPrefix(first[..i], substrings)
      invariant common == Render(first[..i])
    {
      var substring := first[i];
      if Every(substrings, i, substring) {
        RenderAppend(first[..i], substring);
        assert first[..i + 1] == first[..i] + [substring];
        common := common + substring + [Separator];
        i := i + 1;
        assert CommonPrefix(first[..i], substrings) by {
          forall j | 0 <= j < |substrings| ensures IsPrefix(first[..i], substrings[j]) {
            assert substrings[j][..i] == substrings[j][..i - 1] + [substrings[j][i - 1]];
          }
        }
      } else {
        break;
      }
    }
    CommonSegmentsUnique(substrings, first[..i]);
  }

  /** The common directory is empty or ends in a separator. */
  lemma CommonPathEndsWithSeparator(paths: seq<string>)
    requires |paths| > 0
    ensures var r := CommonPath(paths); r == "" || r[|r| - 1] == Separator
  {
  }

  /** The common directory is a prefix of every path followed by a separator. */
  lemma CommonPathIsPrefix(paths: seq<string>, p: string)
    requires |paths| > 0 && p in paths
    ensures IsPrefix(CommonPath(paths), p + [Separator])
  {
    var segs := Segments(paths);
    var j :| 0 <= j < |paths| && paths[j] == p;
    assert IsPrefix(CommonSegments(segs), segs[j]);
    RenderPrefix(CommonSegments(segs), Split(p));
    RenderIsJoin(Split(p));
  }

  /** A single path is its own common directory. */
  lemma CommonPathOfOne(p: string)
    ensures CommonPath([p]) == p + [Separator]
  {
    assert Segments([p]) == [Split(p)];
    RenderIsJoin(Split(p));
  }

  /** The scan stops at the first segment position where the paths disagree;
      agreement further on adds nothing. */
  lemma CommonPathStopsAtMismatch(paths: seq<string>, k: nat)
    requires |paths| > 0 && k < |Split(paths[0])|
    requires forall i :: 0 <= i < k ==> Every(Segments(paths), i, Split(paths[0])[i])
    requires !Every(Segments(paths), k, Split(paths[0])[k])
    ensures CommonPath(paths) == Render(Split(paths[0])[..k])
  {
    var segs := Segments(paths);
    var c := Split(paths[0])[..k];
    assert CommonPrefix(c, segs) by {
      forall j | 0 <= j < |segs| ensures IsPrefix(c, segs[j]) {
        forall i | 0 <= i < k ensures i < |segs[j]| && segs[j][i] == c[i] {
          assert Every(segs, i, Split(paths[0])[i]);
        }
        if k > 0 {
          assert Every(segs, k - 1, Split(paths[0])[k - 1]);
        }
        assert c == segs[j][..k];
      }
    }
    CommonSegmentsUnique(segs, c);
  }

  /** Two paths that part after their first segment have that segment as
      their common directory, even when they agree again further on. */
  lemma CommonPathPartsAfterFirst(a: string, b: string, x: string, c: string)
    requires Separator !in a && Separator !in b && Separator !in x && Separator !in c
    requires b != x
    ensures CommonPath([Join([a, b, c]), Join([a, x, c])]) == a + [Separator]
  {
    var ss, ts := [a, b, c], [a, x, c];
    assert NoSeparators(ss) && NoSeparators(ts);
    SplitJoin(ss);
    SplitJoin(ts);
    var paths := [Join(ss), Join(ts)];
    assert Segments(paths) == [ss, ts];
    assert Every(Segments(paths), 0, a);
    assert Segments(paths)[1][1] == x;
    CommonPathStopsAtMismatch(paths, 1);
    assert ss[..1] == [a];
  }

  lemma CommonPrefixSameSets(c: seq<string>, ps: seq<string>, qs: seq<string>)
    requires forall p :: p in ps <==> p in qs
    requires CommonPrefix(c, Segments(ps))
    ensures CommonPrefix(c, Segments(qs))
  {
    forall j | 0 <= j < |qs| ensures IsPrefix(c, Segments(qs)[j]) {
      assert qs[j] in qs;
      var i :| 0 <= i < |ps| && ps[i] == qs[j];
      assert IsPrefix(c, Segments(ps)[i]);
    }
  }

  /** The common directory depends only on which paths are given: not on
      their order, nor on repetitions. */
  lemma CommonPathOrderIndependent(ps: seq<string>, qs: seq<string>)
    requires |ps| > 0 && |qs| > 0
    requires forall p :: p in ps <==> p in qs
    ensures CommonPath(ps) == CommonPath(qs)
  {
    var a := CommonSegments(Segments(ps));
    var b := CommonSegments(Segments(qs));
    CommonPrefixSameSets(a, ps, qs);
    CommonPrefixSameSets(b, qs, ps);
    CommonSegmentsGreatest(a, Segments(qs));
    CommonSegmentsGreatest(b, Segments(ps));
  }

  /** `parts.pop()` twice: the list without its last two elements, empty when
      there are fewer. */
  function DropLastTwo(ss: seq<string>): seq<string> {
    if |ss| <= 2 then [] else ss[..|ss| - 2]
  }

  /** The tool directory of an entry point: the path without its last two
      segments, joined back with separators. */
  function ToolPath(p: string): (r: string)
    ensures |Split(p)| <= 2 ==> r == ""
    ensures |Split(p)| > 2 ==> p == r + [Separator] + Join(Split(p)[|Split(p)| - 2..])
  {
    var parts := Split(p);
    assert |parts| > 2 ==> p == Join(DropLastTwo(parts)) + [Separator] + Join(parts[|parts| - 2..]) by {
      if |parts| > 2 {
        JoinAppend(parts[..|parts| - 2], parts[|parts| - 2..]);
        assert parts[..|parts| - 2] + parts[|parts| - 2..] == parts;
      }
    }
    Join(DropLastTwo(parts))
  }

  /** The segments of the tool directory are those of the entry point without
      the last two. */
  lemma ToolPathSegments(p: string)
    requires |Split(p)| > 2
    ensures Split(ToolPath(p)) == Split(p)[..|Split(p)| - 2]
  {
    var parts := Split(p);
    var pre := parts[..|parts| - 2];
    assert forall i :: 0 <= i < |pre| ==> pre[i] == parts[i];
    SplitJoin(pre);
  }

  /** The tool directory is a prefix of the entry point. */
  lemma ToolPathIsPrefix(p: string)
    ensures IsPrefix(ToolPath(p), p)
    ensures |Split(p)| > 2 ==> IsPrefix(ToolPath(p) + [Separator], p)
  {
    var r := ToolPath(p);
    if |Split(p)| > 2 {
      var t := Join(Split(p)[|Split(p)| - 2..]);
      assert p == (r + [Separator]) + t;
      assert p[..|r| + 1] == r + [Separator];
      assert p[..|r|] == r;
    }
  }

  /** Dropping the last two segments of a joined list joins the rest. */
  lemma ToolPathOfJoin(ss: seq<string>)
    requires |ss| > 2 && NoSeparators(ss)
    ensures ToolPath(Join(ss)) == Join(ss[..|ss| - 2])
  {
    SplitJoin(ss);
  }

  /** The entry point `packages/tools/<tool>/src/index.ts` of a tool lies two
      levels below its directory `packages/tools/<tool>`. */
  lemma ToolPathOfEntry(tool: string)
    requires Separator !in tool
    ensures ToolPath(Join(["packages", "tools", tool, "src", "index.ts"])) == Join(["packages", "tools", tool])
  {
    var ss := ["packages", "tools", tool, "src", "index.ts"];
    assert NoSeparators(ss);
    ToolPathOfJoin(ss);
    assert ss[..3] == ["packages", "tools", tool];
  }

  /** The options handed to the bundler. */
  datatype BuildOptions = BuildOptions(
    entryNames: string,
    entryPoints: seq<string>,
    bundle: bool,
    minify: bool,
    outdir: string,
    sourcemap: bool,
    platform: string,
    target: string,
    format: string,
    allowOverwrite: bool,
    plugins: seq<string>,
    tsconfig: string)

  /** The output folder: a single tool is written into its own directory,
      several into their common directory. Either way it is a prefix of every
      entry point followed by a separator. */
  function Outdir(paths: seq<string>): (r: string)
    requires |paths| > 0
    ensures forall p :: p in paths ==> IsPrefix(r, p + [Separator])
    ensures |paths| > 1 ==> r == "" || r[|r| - 1] == Separator
  {
    if |paths| == 1 then
      var p := paths[0];
      ToolPathIsPrefix(p);
      assert (p + [Separator])[..|p|] == p;
      PrefixTransitive(ToolPath(p), p, p + [Separator]);
      assert forall q :: q in paths ==> q == p;
      ToolPath(p)
    else
      CommonPathEndsWithSeparator(paths);
      assert forall p :: p in paths ==> IsPrefix(CommonPath(paths), p + [Separator]) by {
        forall p | p in paths ensures IsPrefix(CommonPath(paths), p + [Separator]) {
          CommonPathIsPrefix(paths, p);
        }
      }
      CommonPath(paths)
  }

  /** The build options for the tool entry points. */
  function CommonOps(paths: seq<string>): (ops: BuildOptions)
    requires |paths| > 0
    ensures ops.entryPoints == paths
    ensures forall p :: p in paths ==> IsPrefix(ops.outdir, p + [Separator])
    ensures |paths| > 1 ==> ops.outdir == "" || ops.outdir[|ops.outdir| - 1] == Separator
    ensures ops.bundle && ops.minify && !ops.sourcemap && ops.allowOverwrite && ops.plugins == []
  {
    BuildOptions(
      entryNames := "[dir]/lib/index",
      entryPoints := paths,
      bundle := true,
      minify := true,
      outdir := Outdir(paths),
      sourcemap := false,
      platform := "node",
      target := "esnext",
      format := "esm",
      allowOverwrite := true,
      plugins := [],
      tsconfig := "tsconfig.json")
  }

  /** The entry points without test files: the paths that do not contain
      `.spec.ts`, in their original order. */
  function WithoutSpecs(paths: seq<string>): (r: seq<string>)
    ensures forall p :: p in r <==> p in paths && !Contains(p, SpecMarker)
    ensures |r| <= |paths|
    decreases |paths|
  {
    if |paths| == 0 then []
    else
      var rest := WithoutSpecs(paths[1..]);
      assert forall p :: p in paths <==> p == paths[0] || p in paths[1..];
      if Contains(paths[0], SpecMarker) then rest else [paths[0]] + rest
  }

  /** Filtering distributes over concatenation, so the kept paths stay in
      their original order. */
  lemma {:induction false} WithoutSpecsAppend(a: seq<string>, b: seq<string>)
    ensures WithoutSpecs(a + b) == WithoutSpecs(a) + WithoutSpecs(b)
    decreases |a|
  {
    if |a| > 0 {
      assert (a + b)[1..] == a[1..] + b;
      WithoutSpecsAppend(a[1..], b);
    } else {
      assert a + b == b;
    }
  }

  /** Filtering twice is filtering once. */
  lemma {:induction false} WithoutSpecsIdempotent(paths: seq<string>)
    ensures WithoutSpecs(WithoutSpecs(paths)) == WithoutSpecs(paths)
    decreases |paths|
  {
    if |paths| > 0 {
      WithoutSpecsIdempotent(paths[1..]);
      var rest := WithoutSpecs(paths[1..]);
      if !Contains(paths[0], SpecMarker) {
        assert ([paths[0]] + rest)[1..] == rest;
      }
    }
  }
}

=== FILE: generator.dfy ===
/**
 The generator's command line entry point: it reads `--type` and `--name` from
 the argument vector and, for a valid pair, creates the component folder and
 writes the component's files into it. The file-system calls are modelled as
 an ordered plan of actions, and the error exit as a usage-error outcome.
 Paths are lists of segments; joining them with `/` is left to the caller.
 */
module Generator {
  import opened Text
  import opened KebabCase
  import opened Templates

  /* ---------------- The entry point's own templates ---------------- */

  /** package.json as the entry point writes it: the helper module's text
      without the "files" field. */
  function PackageJsonTemplate(kebab: string): (r: string)
    ensures Contains(r, "\"name\": \"" + PackageName(kebab) + "\"")
    ensures Contains(r, "\"main\": \"" + PackageMain + "\"")
    ensures Contains(r, "\"typings\": \"" + PackageTypings + "\"")
  {
    var a := Args("", kebab, "");
    PackageHeadShows(PackageTail, a);
    FillSections(PackageHead + PackageTail, a)
  }

  /** The two package.json templates differ exactly by the helper module's
      "files" field, which sits between the same head and tail. */
  lemma PackageJsonTemplatesDiffer(kebab: string)
    ensures exists head, tail ::
      && PackageJsonTemplate(kebab) == head + tail
      && Templates.PackageJsonTemplate(kebab) == head + PackageFilesField + tail
  {
    var a := Args("", kebab, "");
    var head, tail := FillSections(PackageHead, a), FillSections(PackageTail, a);
    PackageJsonSplits(kebab);
    Templates.PackageJsonSplits(kebab);
    assert PackageJsonTemplate(kebab) == head + tail;
  }

  lemma PackageJsonSplits(kebab: string)
    ensures PackageJsonTemplate(kebab)
         == FillSections(PackageHead, Args("", kebab, "")) + FillSections(PackageTail, Args("", kebab, ""))
  {
    FillSectionsAppend(PackageHead, PackageTail, Args("", kebab, ""));
  }

  /** Different kebab-case names give different package.json files. */
  lemma PackageJsonTemplateInjective(k: string, l: string)
    requires PackageJsonTemplate(k) == PackageJsonTemplate(l)
    ensures k == l
  {
    PackageShowsKebabOnly(PackageTail);
    SectionsDetermine(PackageHead + PackageTail, 1, Kebab, Args("", k, ""), Args("", l, ""));
  }

  const StorySections: seq<Template> := [
    [Lit("import { h } from 'preact';\nimport './lib/index';\n\nexport default {\n  ")],
    [Lit("title: 'My "), Slot(Name), Lit("'")],
    [Lit(",\n  parameters: {\n    // Specify that the component is a Web Component\n    webComponents: {\n      // Set the tag name of the Web Component\n      ")],
    [Lit("tagName: 'nge-"), Slot(Kebab), Lit("'")],
    [Lit(",\n    },\n  },\n};\n\nexport const Default = () => ")],
    [Lit("<nge-"), Slot(Kebab), Lit(" />")],
    [Lit(";\n    ")]
  ]

  /** `N.stories.tsx` as the entry point writes it: a story for the custom
      element, loading the built bundle. */
  function StoryTemplate(name: string, kebab: string): (r: string)
    ensures Contains(r, "title: 'My " + name + "'")
    ensures Contains(r, "tagName: 'nge-" + kebab + "'")
    ensures Contains(r, "<nge-" + kebab + " />")
  {
    var a := Args(name, kebab, "");
    ShowsSlot(StorySections, 1, "title: 'My ", Name, "'", a);
    ShowsSlot(StorySections, 3, "tagName: 'nge-", Kebab, "'", a);
    ShowsSlot(StorySections, 5, "<nge-", Kebab, " />", a);
    FillSections(StorySections, a)
  }

  const RegisterSections: seq<Template> := [
    [Lit("import register from 'preact-custom-element';\n")],
    [Lit("import "), Slot(Name), Lit(" from './"), Slot(Name), Lit("'")],
    [Lit(";\n\n")],
    [Lit("register("), Slot(Name), Lit(", 'nge-"), Slot(Kebab), Lit("', [], { shadow: true })")],
    [Lit(";\n    ")]
  ]

  /** `register.ts`: imports the component from its own file and registers it
      as the custom element `nge-<kebab>` with a shadow root. */
  function RegisterTemplate(name: string, kebab: string): (r: string)
    ensures Contains(r, "import " + name + " from './" + name + "'")
    ensures Contains(r, "register(" + name + ", 'nge-" + kebab + "', [], { shadow: true })")
  {
    var a := Args(name, kebab, "");
    ShowsTwoSlots(RegisterSections, 1, "import ", Name, " from './", Name, "'", a);
    ShowsTwoSlots(RegisterSections, 3, "register(", Name, ", 'nge-", Kebab, "', [], { shadow: true })", a);
    FillSections(RegisterSections, a)
  }

  /* ---------------- Argument parsing ---------------- */

  /** Array.prototype.indexOf: the first position of `x`, or -1. */
  function IndexOf(argv: seq<string>, x: string): (r: int)
    ensures -1 <= r < |argv|
    ensures r == -1 <==> x !in argv
    ensures r >= 0 ==> argv[r] == x && x !in argv[..r]
  {
    if |argv| == 0 then -1
    else if argv[0] == x then 0
    else
      var r := IndexOf(argv[1..], x);
      assert argv[1..][..if r < 0 then 0 else r] == argv[1..1 + if r < 0 then 0 else r];
      if r == -1 then -1 else r + 1
  }

  /** The element after position `i`; a missing element (JavaScript's
      `undefined`) is falsy like the empty string, so it is modelled by it. */
  function ValueAfter(argv: seq<string>, i: int): string {
    if 0 <= i + 1 < |argv| then argv[i + 1] else ""
  }

  /** The value given to flag `f`: the argument after its first occurrence. */
  function FlagValue(argv: seq<string>, f: string): string {
    ValueAfter(argv, IndexOf(argv, f))
  }

  const NoTypeFlag := "No --type flag was provided"
  const NoTypeValue := "No component type was provided"
  const NoNameValue := "No component name was provided"

  /** A directory or a path, as the list of its segments. */
  type Path = seq<string>

  /** Which template a file is written from, with its arguments. */
  datatype Content =
    | ComponentFile(name: string)
    | GitIgnoreFile
    | PackageJsonFile(kebab: string)
    | TypesFile(name: string)
    | StoryFile(name: string, kebab: string)
    | RegisterFile(name: string, kebab: string)

  /** The text written for a content description. */
  function ContentText(c: Content): string {
    match c
    case ComponentFile(name) => ComponentTemplate(name)
    case GitIgnoreFile => GitIgnoreTemplate()
    case PackageJsonFile(kebab) => PackageJsonTemplate(kebab)
    case TypesFile(name) => TypesTemplate(name)
    case StoryFile(name, kebab) => StoryTemplate(name, kebab)
    case RegisterFile(name, kebab) => RegisterTemplate(name, kebab)
  }

  datatype Action = MakeDir(dir: Path) | WriteFile(file: Path, content: Content)

  /** What a run does: the actions it takes, or the message it exits with. */
  datatype Outcome = Planned(actions: seq<Action>) | UsageError(message: string)

  /** The folder a component of type `t` named `n` is generated into. */
  function ComponentDir(t: string, n: string): Path {
    ["packages", "components", t, n]
  }

  /** The file-system actions for a component of type `t` named `n`, in the
      order the entry point awaits them. */
  function Plan(t: string, n: string): seq<Action> {
    var dir := ComponentDir(t, n);
    var kebab := KebabCase.Kebab(n);
    [ MakeDir(dir),
      WriteFile(dir + [n + ".tsx"], ComponentFile(n)),
      WriteFile(dir + [".gitignore"], GitIgnoreFile),
      WriteFile(dir + ["package.json"], PackageJsonFile(kebab)),
      MakeDir(dir + ["types"]),
      WriteFile(dir + ["types", "index.ts"], TypesFile(n)),
      WriteFile(dir + [n + ".stories.tsx"], StoryFile(n, kebab)),
      WriteFile(dir + ["register.ts"], RegisterFile(n, kebab)) ]
  }

  /** The entry point on argument vector `argv` (all of `process.argv`). The
      type is checked first; without a `--name` flag nothing happens. */
  function Run(argv: seq<string>): Outcome {
    if IndexOf(argv, "--type") == -1 then UsageError(NoTypeFlag)
    else
      var t := FlagValue(argv, "--type");
      if t == "" then UsageError(NoTypeValue)
      else if IndexOf(argv, "--name") == -1 then Planned([])
      else
        var n := FlagValue(argv, "--name");
        if n == "" then UsageError(NoNameValue)
        else Planned(Plan(t, n))
  }

  /* ---------------- What a run does ---------------- */

  /** The one error a missing `--type` flag gives, and only it. */
  lemma RunWithoutTypeFlag(argv: seq<string>)
    ensures Run(argv) == UsageError(NoTypeFlag) <==> "--type" !in argv
  {
    assert NoTypeValue[3] != NoTypeFlag[3] && NoNameValue[3] != NoTypeFlag[3];
  }

  /** `--type` as the last argument, or followed by an empty string, is an
      error whatever else is given. */
  lemma RunWithoutTypeValue(argv: seq<string>)
    requires "--type" in argv && FlagValue(argv, "--type") == ""
    ensures Run(argv) == UsageError(NoTypeValue)
  {
  }

  lemma TypeFlagLast(p: seq<string>)
    requires "--type" !in p
    ensures Run(p + ["--type"]) == UsageError(NoTypeValue)
  {
    IndexOfAfter(p, "--type", []);
  }

  /** With a valid type and no `--name` flag nothing is done and no error is
      reported; this is the only way a run plans nothing. */
  lemma RunWithoutNameFlag(argv: seq<string>)
    ensures Run(argv) == Planned([])
        <==> "--type" in argv && FlagValue(argv, "--type") != "" && "--name" !in argv
  {
  }

  /** A `--name` flag without a value is an error once the type is valid. */
  lemma RunWithoutNameValue(argv: seq<string>)
    requires "--type" in argv && FlagValue(argv, "--type") != ""
    requires "--name" in argv && FlagValue(argv, "--name") == ""
    ensures Run(argv) == UsageError(NoNameValue)
  {
  }

  /** A run plans files exactly when both flags have values, and then it
      plans them for those values. */
  lemma RunPlansComponent(argv: seq<string>)
    ensures Run(argv).Planned? && |Run(argv).actions| > 0
        <==> && "--type" in argv && FlagValue(argv, "--type") != ""
             && "--name" in argv && FlagValue(argv, "--name") != ""
    ensures Run(argv).Planned? && |Run(argv).actions| > 0
        ==> Run(argv).actions == Plan(FlagValue(argv, "--type"), FlagValue(argv, "--name"))
  {
  }

  /** A flag placed after arguments that do not contain it is found right there. */
  lemma IndexOfAfter(p: seq<string>, x: string, q: seq<string>)
    requires x !in p
    ensures IndexOf(p + [x] + q, x) == |p|
    ensures FlagValue(p + [x] + q, x) == if |q| > 0 then q[0] else ""
  {
    var s := p + [x] + q;
    assert s[|p|] == x;
    assert s[..|p|] == p;
  }

  /** A run depends on its argument vector only through the presence and the
      values of the two flags. */
  lemma RunDependsOnFlagsOnly(argv: seq<string>, other: seq<string>)
    requires "--type" in argv <==> "--type" in other
    requires "--name" in argv <==> "--name" in other
    requires "--type" in argv ==> FlagValue(argv, "--type") == FlagValue(other, "--type")
    requires "--name" in argv ==> FlagValue(argv, "--name") == FlagValue(other, "--name")
    ensures Run(argv) == Run(other)
  {
  }

  /** The order of the two flags does not matter. */
  lemma RunIgnoresFlagOrder(p: seq<string>, t: string, n: string, q: seq<string>)
    requires "--type" !in p && "--name" !in p
    requires t != "--name" && n != "--type"
    ensures Run(p + ["--type", t, "--name", n] + q) == Run(p + ["--name", n, "--type", t] + q)
  {
    var x, y := p + ["--type", t, "--name", n] + q, p + ["--name", n, "--type", t] + q;
    TwoFlags(p, "--type", t, "--name", n, q);
    TwoFlags(p, "--name", n, "--type", t, q);
    RunDependsOnFlagsOnly(x, y);
  }

  /** Both flags of `p + [f, v, g, w] + q` are found with their values when `p`
      holds neither and `v` is not the second flag. */
  lemma TwoFlags(p: seq<string>, f: string, v: string, g: string, w: string, q: seq<string>)
    requires f !in p && g !in p && f != g && v != g
    ensures f in p + [f, v, g, w] + q && FlagValue(p + [f, v, g, w] + q, f) == v
    ensures g in p + [f, v, g, w] + q && FlagValue(p + [f, v, g, w] + q, g) == w
  {
    var x := p + [f, v, g, w] + q;
    assert x == p + [f] + ([v, g, w] + q);
    IndexOfAfter(p, f, [v, g, w] + q);
    assert x == (p + [f, v]) + [g] + ([w] + q);
    IndexOfAfter(p + [f, v], g, [w] + q);
  }

  /* ---------------- The plan ---------------- */

  /** The path an action creates. */
  function Target(a: Action): Path {
    match a
    case MakeDir(dir) => dir
    case WriteFile(file, _) => file
  }

  /** `d` is created by one of the first `i` actions. */
  predicate MadeBefore(actions: seq<Action>, i: int, d: Path) {
    exists j | 0 <= j < i && j < |actions| :: actions[j] == MakeDir(d)
  }

  /** Every action's target lies in a directory that already exists or that an
      earlier action creates, and no directory is created twice or over an
      existing one: the conditions under which a non-recursive `mkdir` and
      `writeFile` succeed. */
  predicate Feasible(actions: seq<Action>, existing: set<Path>) {
    forall i | 0 <= i < |actions| ::
      && |Target(actions[i])| > 0
      && (Target(actions[i])[..|Target(actions[i])| - 1] in existing
          || MadeBefore(actions, i, Target(actions[i])[..|Target(actions[i])| - 1]))
      && (actions[i].MakeDir? ==> actions[i].dir !in existing && !MadeBefore(actions, i, actions[i].dir))
  }

  /** The plan only needs the type's folder to exist beforehand. */
  lemma PlanIsFeasible(t: string, n: string)
    ensures Feasible(Plan(t, n), {["packages", "components", t]})
  {
    var plan, dir := Plan(t, n), ComponentDir(t, n);
    assert dir[..3] == ["packages", "components", t];
    assert plan[0] == MakeDir(dir);
    assert plan[4] == MakeDir(dir + ["types"]);
    assert (dir + ["types"])[..4] == dir;
    assert (dir + ["types", "index.ts"])[..5] == dir + ["types"];
    forall i | 0 <= i < |plan| ensures |Target(plan[i])| > 0 {
    }
  }

  /** No file is written twice. */
  lemma PlanWritesDistinctFiles(t: string, n: string)
    ensures forall i, j | 0 <= i < j < |Plan(t, n)| ::
      Plan(t, n)[i].WriteFile? && Plan(t, n)[j].WriteFile? ==> Plan(t, n)[i].file != Plan(t, n)[j].file
  {
    var plan := Plan(t, n);
    var names := WrittenNames(n);
    WrittenNamesDistinct(n);
    assert forall i | 0 <= i < 8 && plan[i].WriteFile? :: Last(plan[i].file) == names[WriteNumber(i)] by {
      assert Last(plan[5].file) == "index.ts";
    }
  }

  /** The last segment of a path: the file name of a written file, or `""`
      for the empty path. */
  function Last(p: Path): string {
    if |p| == 0 then "" else p[|p| - 1]
  }

  /** Where the write at plan position `i` falls in `WrittenNames`: positions
      1 to 4 are the first four writes (position 0 creates the directory) and
      positions 6 and 7 the last two (position 5 creates `types`). Only
      meaningful when `Plan(t, n)[i]` is a write. */
  function WriteNumber(i: int): int {
    if i <= 4 then i - 1 else i - 2
  }

  /** The last segments of the files the plan writes, in order. */
  function WrittenNames(n: string): seq<string> {
    [n + ".tsx", ".gitignore", "package.json", "index.ts", n + ".stories.tsx", "register.ts"]
  }

  lemma WrittenNamesDistinct(n: string)
    ensures forall i, j | 0 <= i < j < 6 :: WrittenNames(n)[i] != WrittenNames(n)[j]
  {
    EndsWith(n, ".tsx");
    EndsWith(n, ".stories.tsx");
  }

  lemma EndsWith(s: string, suffix: string)
    requires |suffix| > 0
    ensures (s + suffix)[|s + suffix| - 1] == suffix[|suffix| - 1]
  {
  }

  /** Every action stays inside the component's folder. */
  lemma PlanStaysInComponentDir(t: string, n: string)
    ensures forall i | 0 <= i < |Plan(t, n)| :: IsPrefix(ComponentDir(t, n), Target(Plan(t, n)[i]))
  {
  }

  /** The files an action list writes, in order. */
  function Writes(actions: seq<Action>): seq<Path> {
    if |actions| == 0 then []
    else (if actions[0].WriteFile? then [actions[0].file] else []) + Writes(actions[1..])
  }

  /** The plan first creates the component folder, then writes exactly six
      files in this order; the `types` folder is created before its file. */
  lemma PlanShape(t: string, n: string)
    ensures Plan(t, n)[0] == MakeDir(ComponentDir(t, n))
    ensures Writes(Plan(t, n)) == [
      ComponentDir(t, n) + [n + ".tsx"],
      ComponentDir(t, n) + [".gitignore"],
      ComponentDir(t, n) + ["package.json"],
      ComponentDir(t, n) + ["types", "index.ts"],
      ComponentDir(t, n) + [n + ".stories.tsx"],
      ComponentDir(t, n) + ["register.ts"]]
    ensures Plan(t, n)[4] == MakeDir(ComponentDir(t, n) + ["types"])
    ensures Plan(t, n)[5].WriteFile? && Plan(t, n)[5].file == ComponentDir(t, n) + ["types", "index.ts"]
  {
    var plan, dir := Plan(t, n), ComponentDir(t, n);
    assert plan[7..][1..] == [];
    assert Writes(plan[7..]) == [dir + ["register.ts"]];
    assert plan[6..][1..] == plan[7..];
    assert Writes(plan[6..]) == [dir + [n + ".stories.tsx"]] + Writes(plan[7..]);
    assert plan[5..][1..] == plan[6..];
    assert Writes(plan[5..]) == [dir + ["types", "index.ts"]] + Writes(plan[6..]);
    assert plan[4..][1..] == plan[5..];
    assert Writes(plan[4..]) == Writes(plan[5..]);
    assert plan[3..][1..] == plan[4..];
    assert Writes(plan[3..]) == [dir + ["package.json"]] + Writes(plan[4..]);
    assert plan[2..][1..] == plan[3..];
    assert Writes(plan[2..]) == [dir + [".gitignore"]] + Writes(plan[3..]);
    assert plan[1..][1..] == plan[2..];
    assert Writes(plan[1..]) == [dir + [n + ".tsx"]] + Writes(plan[2..]);
    assert Writes(plan) == Writes(plan[1..]);
  }

  /** The prefix of every custom element the generator registers. */
  const ElementPrefix: string := "nge-"

  /** The custom element name is `nge-` followed by the kebab-case name: it
      has no upper-case letter and no whitespace. */
  function TagName(n: string): (tag: string)
    ensures IsPrefix(ElementPrefix, tag)
    ensures NoUpper(tag) && NoSeparator(tag)
  {
    var k := KebabCase.Kebab(n);
    ElementPrefixIsPlain();
    PlainAppend(ElementPrefix, k);
    assert (ElementPrefix + k)[..|ElementPrefix|] == ElementPrefix;
    ElementPrefix + k
  }

  lemma ElementPrefixIsPlain()
    ensures NoUpper(ElementPrefix) && NoSeparator(ElementPrefix)
  {
    assert ElementPrefix == ['n', 'g', 'e', '-'];
    assert forall c | c in ['n', 'g', 'e', '-'] :: c !in Whitespace;
  }

  /* ---------------- What each write carries ---------------- */

  /** The content each write of the plan is made from: the component, the
      ignore list and the types from the name, package.json from the
      kebab-case name, the story and the registration from both. */
  lemma PlanContents(t: string, n: string)
    ensures Plan(t, n)[1].content == ComponentFile(n)
    ensures Plan(t, n)[2].content == GitIgnoreFile
    ensures Plan(t, n)[3].content == PackageJsonFile(KebabCase.Kebab(n))
    ensures Plan(t, n)[5].content == TypesFile(n)
    ensures Plan(t, n)[6].content == StoryFile(n, KebabCase.Kebab(n))
    ensures Plan(t, n)[7].content == RegisterFile(n, KebabCase.Kebab(n))
  {
  }

  /** package.json is written into the component folder from the kebab-case
      name, which has no upper-case letter and no whitespace or underscore;
      `PackageJsonTemplate` says which package name that gives. */
  lemma PackageFileFromKebab(t: string, n: string)
    ensures Plan(t, n)[3] == WriteFile(ComponentDir(t, n) + ["package.json"], PackageJsonFile(KebabCase.Kebab(n)))
    ensures NoUpper(Plan(t, n)[3].content.kebab) && NoSeparator(Plan(t, n)[3].content.kebab)
  {
  }

  /** `N.stories.tsx` shows the component under its tag name. */
  lemma StoryFileUsesTagName(t: string, n: string)
    ensures Plan(t, n)[6] == WriteFile(ComponentDir(t, n) + [n + ".stories.tsx"], StoryFile(n, KebabCase.Kebab(n)))
    ensures Contains(StoryTemplate(n, KebabCase.Kebab(n)), "tagName: '" + TagName(n) + "'")
    ensures Contains(StoryTemplate(n, KebabCase.Kebab(n)), "<" + TagName(n) + " />")
  {
    TagNameInStoryField(n);
    TagNameInElement(n);
  }

  /** `register.ts` registers the component under its tag name. */
  lemma RegisterFileUsesTagName(t: string, n: string)
    ensures Plan(t, n)[7] == WriteFile(ComponentDir(t, n) + ["register.ts"], RegisterFile(n, KebabCase.Kebab(n)))
    ensures Contains(RegisterTemplate(n, KebabCase.Kebab(n)), "register(" + n + ", '" + TagName(n) + "', [], { shadow: true })")
  {
    TagNameInRegistration(n);
  }

  /* The templates spell the tag name out as `nge-` followed by the kebab-case
     name; each lemma below regroups one such spelling around `TagName`. */

  lemma TagNameInStoryField(n: string)
    ensures "tagName: 'nge-" + KebabCase.Kebab(n) + "'" == "tagName: '" + TagName(n) + "'"
  {
    assert "tagName: 'nge-" == "tagName: '" + ElementPrefix;
    AppendAssociative("tagName: '", ElementPrefix, KebabCase.Kebab(n));
  }

  lemma TagNameInElement(n: string)
    ensures "<nge-" + KebabCase.Kebab(n) + " />" == "<" + TagName(n) + " />"
  {
    assert "<nge-" == "<" + ElementPrefix;
    AppendAssociative("<", ElementPrefix, KebabCase.Kebab(n));
  }

  lemma TagNameInRegistration(n: string)
    ensures "register(" + n + ", 'nge-" + KebabCase.Kebab(n) + "', [], { shadow: true })"
         == "register(" + n + ", '" + TagName(n) + "', [], { shadow: true })"
  {
    var head := "register(" + n;
    assert ", 'nge-" == ", '" + ElementPrefix;
    AppendAssociative(head, ", '", ElementPrefix);
    AppendAssociative(head + ", '", ElementPrefix, KebabCase.Kebab(n));
  }

  /** The story the plan writes is rendered with the entry point's own story
      template, so its text sets the component's tag name. */
  lemma StoryFileText(t: string, n: string)
    ensures ContentText(Plan(t, n)[6].content) == StoryTemplate(n, KebabCase.Kebab(n))
    ensures Contains(ContentText(Plan(t, n)[6].content), "tagName: '" + TagName(n) + "'")
  {
    PlanContents(t, n);
    StoryContent(n, KebabCase.Kebab(n));
    StoryFileUsesTagName(t, n);
  }

  lemma StoryContent(n: string, k: string)
    ensures ContentText(StoryFile(n, k)) == StoryTemplate(n, k)
  {
  }
}

=== FILE: kebab.dfy ===
/**
 The name deriver: `getKebabCase` turns a component name such as
 `HelloWorld` into the tag suffix `hello-world`. It is three passes:
   1. `/([a-z])([A-Z])/g -> '$1-$2'`: a hyphen between a lower-case letter and
      the upper-case letter right after it;
   2. `/[\s_]+/g -> '-'`: every maximal run of whitespace or `_` becomes one `-`;
   3. lower-casing.
 Passes 1 and 2 are modelled the way the regular-expression engine scans and
 are proved equal to independent descriptions of what they do
 (`InsertAtBoundaries`, `CollapseByRunStarts`). Pass 3 is specified by the
 contract of `LowerChar` and by `LowerAsciiFixedPoints`.
 */
module KebabCase {
  import opened Text

  /* ---------------- Pass 1: hyphen at lower/upper boundaries ---------------- */

  /** Position `i` holds a lower-case letter directly followed by an upper-case one. */
  predicate IsBoundary(s: string, i: int) {
    0 <= i < |s| - 1 && IsLower(s[i]) && IsUpper(s[i + 1])
  }

  predicate AllSeparators(s: string) {
    forall i | 0 <= i < |s| :: IsSeparator(s[i])
  }

  predicate NoBoundary(s: string) {
    forall i | 0 <= i < |s| - 1 :: !IsBoundary(s, i)
  }

  /** The global replace of `([a-z])([A-Z])` by `$1-$2`: the engine tries a
      match at the current position; a match consumes both letters and the
      scan resumes after them, otherwise it moves on by one character. */
  function Hyphenate(s: string): (r: string)
    ensures |s| > 0 ==> |r| > 0 && r[0] == s[0] && r[|r| - 1] == s[|s| - 1]
    decreases |s|
  {
    if |s| == 0 then ""
    else if |s| >= 2 && IsLower(s[0]) && IsUpper(s[1]) then [s[0], '-', s[1]] + Hyphenate(s[2..])
    else [s[0]] + Hyphenate(s[1..])
  }

  /** After pass 1 no lower-case letter is directly followed by an upper-case one. */
  lemma {:induction false} HyphenateLeavesNoBoundary(s: string)
    ensures NoBoundary(Hyphenate(s))
    decreases |s|
  {
    if |s| == 0 {
    } else if |s| >= 2 && IsLower(s[0]) && IsUpper(s[1]) {
      var rest := Hyphenate(s[2..]);
      var r := [s[0], '-', s[1]] + rest;
      HyphenateLeavesNoBoundary(s[2..]);
      forall i | 0 <= i < |r| - 1 ensures !IsBoundary(r, i) {
        if i >= 3 {
          assert r[i] == rest[i - 3] && r[i + 1] == rest[i - 2];
          assert !IsBoundary(rest, i - 3);
        }
      }
    } else {
      var rest := Hyphenate(s[1..]);
      var r := [s[0]] + rest;
      HyphenateLeavesNoBoundary(s[1..]);
      forall i | 0 <= i < |r| - 1 ensures !IsBoundary(r, i) {
        if i >= 1 {
          assert r[i] == rest[i - 1] && r[i + 1] == rest[i];
          assert !IsBoundary(rest, i - 1);
        }
      }
    }
  }

  /** Reference reading of pass 1: copy every character and put one `-` after
      each character that starts a lower/upper boundary. */
  function InsertAtBoundaries(s: string): string
    decreases |s|
  {
    if |s| == 0 then ""
    else [s[0]] + (if IsBoundary(s, 0) then "-" else "") + InsertAtBoundaries(s[1..])
  }

  /** The regex scan inserts a hyphen at every boundary and nowhere else:
      no two boundaries overlap, because the second letter of one is upper-case
      and cannot start another. */
  lemma {:induction false} HyphenateInsertsAtEveryBoundary(s: string)
    ensures Hyphenate(s) == InsertAtBoundaries(s)
    decreases |s|
  {
    if |s| >= 2 && IsLower(s[0]) && IsUpper(s[1]) {
      HyphenateInsertsAtEveryBoundary(s[2..]);
      InsertAtBoundaryPair(s);
    } else if |s| > 0 {
      HyphenateInsertsAtEveryBoundary(s[1..]);
    }
  }

  /** At a boundary the reference reading emits both letters with the hyphen
      between them, and the second letter starts no boundary of its own. */
  lemma InsertAtBoundaryPair(s: string)
    requires |s| >= 2 && IsLower(s[0]) && IsUpper(s[1])
    ensures InsertAtBoundaries(s) == [s[0], '-', s[1]] + InsertAtBoundaries(s[2..])
  {
    var tail := s[1..];
    assert tail[1..] == s[2..];
    assert !IsBoundary(tail, 0);
    assert InsertAtBoundaries(tail) == [s[1]] + InsertAtBoundaries(s[2..]);
    assert InsertAtBoundaries(s) == [s[0]] + "-" + InsertAtBoundaries(tail);
    assert [s[0]] + "-" + ([s[1]] + InsertAtBoundaries(s[2..])) == [s[0], '-', s[1]] + InsertAtBoundaries(s[2..]);
  }

  /** Pass 1 changes a string exactly when it has a boundary. */
  lemma {:induction false} HyphenateFixedPoints(s: string)
    ensures Hyphenate(s) == s <==> NoBoundary(s)
    decreases |s|
  {
    HyphenateLeavesNoBoundary(s);
    if NoBoundary(s) && |s| > 0 {
      assert !IsBoundary(s, 0);
      assert NoBoundary(s[1..]) by {
        forall i ensures !IsBoundary(s[1..], i) {
          assert IsBoundary(s[1..], i) ==> IsBoundary(s, i + 1);
        }
      }
      HyphenateFixedPoints(s[1..]);
    }
  }

  /** A string without upper-case letters has no boundary. */
  lemma NoUpperNoBoundary(s: string)
    requires NoUpper(s)
    ensures NoBoundary(s)
  {
    forall i ensures !IsBoundary(s, i) {
      if 0 <= i < |s| - 1 {
        assert !IsUpper(s[i + 1]);
      }
    }
  }

  /* ---------------- Pass 2: collapse separator runs ---------------- */

  /** Removes the maximal run of separators at the front of `s`: what is dropped
      is all separators and what is kept does not start with one. */
  function DropSeparators(s: string): (r: string)
    ensures |r| <= |s| && r == s[|s| - |r|..]
    ensures forall i :: 0 <= i < |s| - |r| ==> IsSeparator(s[i])
    ensures |r| > 0 ==> !IsSeparator(r[0])
    decreases |s|
  {
    if |s| > 0 && IsSeparator(s[0]) then DropSeparators(s[1..]) else s
  }

  /** The global replace of `[\s_]+` by `-`: at a separator the greedy `+`
      consumes the whole run, which is replaced by a single hyphen. */
  function CollapseSeparators(s: string): (r: string)
    ensures NoSeparator(r)
    ensures |r| <= |s|
    decreases |s|
  {
    if |s| == 0 then ""
    else if IsSeparator(s[0]) then "-" + CollapseSeparators(DropSeparators(s[1..]))
    else [s[0]] + CollapseSeparators(s[1..])
  }

  /** Reference reading of pass 2, one character at a time: a separator that
      starts a run becomes `-`, a separator that continues a run disappears,
      every other character is copied. `afterSeparator` says whether the
      previous character was a separator. */
  function CollapseByRunStarts(s: string, afterSeparator: bool): string
    decreases |s|
  {
    if |s| == 0 then ""
    else if IsSeparator(s[0]) then
      (if afterSeparator then "" else "-") + CollapseByRunStarts(s[1..], true)
    else [s[0]] + CollapseByRunStarts(s[1..], false)
  }

  /** Each maximal run of separators becomes exactly one hyphen. */
  lemma {:induction false} CollapseMatchesRunStarts(s: string)
    ensures CollapseSeparators(s) == CollapseByRunStarts(s, false)
    ensures CollapseSeparators(DropSeparators(s)) == CollapseByRunStarts(s, true)
    decreases |s|
  {
    if |s| > 0 {
      CollapseMatchesRunStarts(s[1..]);
    }
  }

  /** Pass 2 changes a string exactly when it contains a separator. */
  lemma {:induction false} CollapseFixedPoints(s: string)
    ensures CollapseSeparators(s) == s <==> NoSeparator(s)
    decreases |s|
  {
    if NoSeparator(s) && |s| > 0 {
      assert !IsSeparator(s[0]);
      assert NoSeparator(s[1..]) by {
        forall i | 0 <= i < |s[1..]| ensures !IsSeparator(s[1..][i]) {
          assert s[1..][i] == s[i + 1];
        }
      }
      CollapseFixedPoints(s[1..]);
    }
  }

  /* ---------------- The three passes together ---------------- */

  /** getKebabCase, with lower-casing restricted to ASCII letters. */
  function Kebab(name: string): (r: string)
    ensures NoUpper(r)
    ensures NoSeparator(r)
  {
    var r := LowerAscii(CollapseSeparators(Hyphenate(name)));
    LowerAsciiFixedPoints(CollapseSeparators(Hyphenate(name)));
    LowerKeepsNoSeparator(CollapseSeparators(Hyphenate(name)));
    r
  }

  lemma LowerKeepsNoSeparator(s: string)
    requires NoSeparator(s)
    ensures NoSeparator(LowerAscii(s))
  {
    forall i | 0 <= i < |s| ensures !IsSeparator(LowerAscii(s)[i]) {
      assert !IsSeparator(s[i]);
    }
  }

  /** Normal form of a derived name: no ASCII upper-case letter, no whitespace
      and no underscore. */
  predicate IsKebab(s: string) {
    NoUpper(s) && NoSeparator(s)
  }

  /** The names the deriver leaves unchanged are exactly the normal forms. */
  lemma KebabFixedPoints(s: string)
    ensures Kebab(s) == s <==> IsKebab(s)
  {
    if IsKebab(s) {
      NoUpperNoBoundary(s);
      HyphenateFixedPoints(s);
      CollapseFixedPoints(s);
      LowerAsciiFixedPoints(s);
    }
  }

  /** Deriving the kebab name of a kebab name changes nothing. */
  lemma KebabIdempotent(s: string)
    ensures Kebab(Kebab(s)) == Kebab(s)
  {
    KebabFixedPoints(Kebab(s));
  }

  /* ---------------- How the passes compose ---------------- */

  /** The hyphen pass 1 puts between `a` and `b` when they are joined. */
  function Junction(a: string, b: string): string {
    if |a| > 0 && |b| > 0 && IsLower(a[|a| - 1]) && IsUpper(b[0]) then "-" else ""
  }

  /** Pass 1 is local: a hyphen appears at the junction of two strings exactly
      when the junction is a lower/upper boundary. */
  lemma {:induction false} InsertAtBoundariesAppend(a: string, b: string)
    ensures InsertAtBoundaries(a + b)
         == InsertAtBoundaries(a) + Junction(a, b) + InsertAtBoundaries(b)
    decreases |a|
  {
    if |a| == 0 {
      assert a + b == b;
    } else {
      var tail := a[1..];
      assert (a + b)[1..] == tail + b;
      assert IsBoundary(a + b, 0) == (if |a| == 1 then Junction(a, b) == "-" else IsBoundary(a, 0));
      InsertAtBoundariesAppend(tail, b);
      if |a| == 1 {
        assert tail + b == b;
        assert InsertAtBoundaries(a) == [a[0]];
      } else {
        assert Junction(tail, b) == Junction(a, b);
        var mark := if IsBoundary(a, 0) then "-" else "";
        calc {
          InsertAtBoundaries(a + b);
          [a[0]] + mark + InsertAtBoundaries(tail + b);
          [a[0]] + mark + (InsertAtBoundaries(tail) + Junction(a, b) + InsertAtBoundaries(b));
          ([a[0]] + mark + InsertAtBoundaries(tail)) + Junction(a, b) + InsertAtBoundaries(b);
        }
      }
    }
  }

  lemma HyphenateAppend(a: string, b: string)
    ensures Hyphenate(a + b) == Hyphenate(a) + Junction(a, b) + Hyphenate(b)
  {
    HyphenateInsertsAtEveryBoundary(a + b);
    HyphenateInsertsAtEveryBoundary(a);
    HyphenateInsertsAtEveryBoundary(b);
    InsertAtBoundariesAppend(a, b);
  }

  /** Pass 2 is compositional where no separator run crosses the junction. */
  lemma {:induction false} CollapseAppend(a: string, b: string)
    requires |a| == 0 || !IsSeparator(a[|a| - 1]) || |b| == 0 || !IsSeparator(b[0])
    ensures CollapseSeparators(a + b) == CollapseSeparators(a) + CollapseSeparators(b)
  {
    CollapseMatchesRunStarts(a + b);
    CollapseMatchesRunStarts(a);
    CollapseMatchesRunStarts(b);
    RunStartsAppend(a, b, false);
    if |b| == 0 || !IsSeparator(b[0]) {
      RunStartsIgnoresFlag(b, EndsInRun(a, false), false);
    } else {
      assert !EndsInRun(a, false);
    }
  }

  /** Whether the reference reading of pass 2 is inside a separator run after
      reading `s`, having started with flag `afterSeparator`. */
  function EndsInRun(s: string, afterSeparator: bool): bool
  {
    if |s| == 0 then afterSeparator else IsSeparator(s[|s| - 1])
  }

  /** The reference reading of pass 2 splits at any junction, carrying the
      run flag across it. */
  lemma {:induction false} RunStartsAppend(a: string, b: string, afterSeparator: bool)
    ensures CollapseByRunStarts(a + b, afterSeparator)
         == CollapseByRunStarts(a, afterSeparator) + CollapseByRunStarts(b, EndsInRun(a, afterSeparator))
    decreases |a|
  {
    if |a| == 0 {
      assert a + b == b;
    } else {
      var f := IsSeparator(a[0]);
      var head := if f then (if afterSeparator then "" else "-") else [a[0]];
      assert (a + b)[0] == a[0] && (a + b)[1..] == a[1..] + b;
      assert EndsInRun(a[1..], f) == EndsInRun(a, afterSeparator);
      RunStartsAppend(a[1..], b, f);
      AppendAssociative(head, CollapseByRunStarts(a[1..], f), CollapseByRunStarts(b, EndsInRun(a, afterSeparator)));
    }
  }

  /** The run flag matters only when the input starts with a separator. */
  lemma {:induction false} RunStartsIgnoresFlag(b: string, f: bool, g: bool)
    requires |b| == 0 || !IsSeparator(b[0])
    ensures CollapseByRunStarts(b, f) == CollapseByRunStarts(b, g)
  {
  }

  lemma SeparatorIsNotLetter(c: char)
    requires IsSeparator(c)
    ensures !IsLower(c) && !IsUpper(c)
  {
  }

  /** Lower-casing works character by character. */
  lemma LowerAsciiAppend(a: string, b: string)
    ensures LowerAscii(a + b) == LowerAscii(a) + LowerAscii(b)
  {
  }

  /** A word without boundaries or separators only has its letters lowered. */
  lemma KebabOfPlainWord(w: string)
    requires NoBoundary(w) && NoSeparator(w)
    ensures Kebab(w) == LowerAscii(w)
  {
    HyphenateFixedPoints(w);
    CollapseFixedPoints(w);
  }

  /** camelCase / PascalCase: appending a capitalised word to a name that ends
      in a lower-case letter appends `-` and the lowered word to its kebab name. */
  lemma KebabAppendCapitalised(a: string, w: string)
    requires |a| > 0 && IsLower(a[|a| - 1])
    requires |w| > 0 && IsUpper(w[0]) && NoBoundary(w) && NoSeparator(w)
    ensures Kebab(a + w) == Kebab(a) + "-" + LowerAscii(w)
  {
    var h := Hyphenate(a);
    var c := CollapseSeparators(h);
    var hw := "-" + w;
    assert Hyphenate(a + w) == h + hw by {
      HyphenateAppend(a, w);
      HyphenateFixedPoints(w);
      AppendAssociative(h, "-", w);
    }
    assert CollapseSeparators(h + hw) == c + hw by {
      assert NoSeparator(hw) by {
        forall i | 0 <= i < |hw| ensures !IsSeparator(hw[i]) {
          if i > 0 {
            assert hw[i] == w[i - 1];
          }
        }
      }
      CollapseFixedPoints(hw);
      CollapseAppend(h, hw);
    }
    assert LowerAscii(c + hw) == LowerAscii(c) + "-" + LowerAscii(w) by {
      LowerAsciiAppend(c, hw);
      LowerAsciiAppend("-", w);
      AppendAssociative(LowerAscii(c), "-", LowerAscii(w));
    }
  }

  /** A run of separators holds no letter, so pass 1 puts nothing in it or
      next to it. */
  lemma HyphenateAroundSeparators(a: string, run: string, w: string)
    requires |run| > 0 && AllSeparators(run)
    requires NoBoundary(w)
    ensures Hyphenate(a + run + w) == Hyphenate(a) + (run + w)
  {
    HyphenateOfRun(a, run);
    HyphenateAppendQuiet(a, run);
    JunctionAfterRun(a, run, w);
    HyphenateOfPlain(w);
    HyphenateAppendQuiet(a + run, w);
    AppendAssociative(Hyphenate(a), run, w);
  }

  /** Joining at a place that is not a lower/upper boundary adds no hyphen. */
  lemma HyphenateAppendQuiet(x: string, w: string)
    requires Junction(x, w) == ""
    ensures Hyphenate(x + w) == Hyphenate(x) + Hyphenate(w)
  {
    HyphenateAppend(x, w);
  }

  lemma JunctionAfterRun(a: string, run: string, w: string)
    requires |run| > 0 && AllSeparators(run)
    ensures Junction(a + run, w) == ""
  {
    HyphenateOfRun(a, run);
    assert (a + run)[|a + run| - 1] == run[|run| - 1];
  }

  lemma HyphenateOfPlain(w: string)
    requires NoBoundary(w)
    ensures Hyphenate(w) == w
  {
    HyphenateFixedPoints(w);
  }

  lemma HyphenateOfRun(a: string, run: string)
    requires |run| > 0 && AllSeparators(run)
    ensures Hyphenate(run) == run
    ensures Junction(a, run) == ""
    ensures !IsLower(run[|run| - 1])
  {
    RunHasNoLetters(run);
    HyphenateFixedPoints(run);
  }

  lemma RunHasNoLetters(run: string)
    requires AllSeparators(run)
    ensures NoBoundary(run)
    ensures |run| > 0 ==> !IsUpper(run[0]) && !IsLower(run[|run| - 1])
  {
    forall i | 0 <= i < |run| ensures !IsLower(run[i]) && !IsUpper(run[i]) {
      SeparatorIsNotLetter(run[i]);
    }
  }

  /** Only separators in front: pass 2's run skipping removes all of them. */
  lemma {:induction false} DropSeparatorsOfRun(run: string, w: string)
    requires AllSeparators(run)
    requires |w| == 0 || !IsSeparator(w[0])
    ensures DropSeparators(run + w) == w
    decreases |run|
  {
    if |run| == 0 {
      assert run + w == w;
    } else {
      assert (run + w)[0] == run[0] && (run + w)[1..] == run[1..] + w;
      assert AllSeparators(run[1..]) by {
        forall i | 0 <= i < |run[1..]| ensures IsSeparator(run[1..][i]) {
          assert run[1..][i] == run[i + 1];
        }
      }
      DropSeparatorsOfRun(run[1..], w);
    }
  }

  /** A run of separators followed by a plain word collapses to `-` and the word. */
  lemma CollapseRunThenWord(run: string, w: string)
    requires |run| > 0 && AllSeparators(run)
    requires |w| > 0 && NoSeparator(w)
    ensures CollapseSeparators(run + w) == "-" + w
  {
    assert (run + w)[0] == run[0] && (run + w)[1..] == run[1..] + w;
    assert AllSeparators(run[1..]) by {
      forall i | 0 <= i < |run[1..]| ensures IsSeparator(run[1..][i]) {
        assert run[1..][i] == run[i + 1];
      }
    }
    DropSeparatorsOfRun(run[1..], w);
    CollapseFixedPoints(w);
  }

  /** snake_case and spaced names: a run of separators between a name and a
      plain word becomes one `-`. */
  lemma KebabAppendAfterSeparators(a: string, run: string, w: string)
    requires |a| > 0 && !IsSeparator(a[|a| - 1])
    requires |run| > 0 && AllSeparators(run)
    requires |w| > 0 && NoBoundary(w) && NoSeparator(w)
    ensures Kebab(a + run + w) == Kebab(a) + "-" + LowerAscii(w)
  {
    var h := Hyphenate(a);
    var c := CollapseSeparators(h);
    HyphenateAroundSeparators(a, run, w);
    assert CollapseSeparators(h + (run + w)) == c + ("-" + w) by {
      CollapseRunThenWord(run, w);
      CollapseAppend(h, run + w);
    }
    assert LowerAscii(c + ("-" + w)) == LowerAscii(c) + "-" + LowerAscii(w) by {
      LowerAsciiAppend(c, "-" + w);
      LowerAsciiAppend("-", w);
      AppendAssociative(LowerAscii(c), "-", LowerAscii(w));
    }
  }

  /** A letter followed by lower-case letters, as in `Hello` or `world`. */
  predicate IsWord(w: string) {
    && |w| > 0
    && (IsLower(w[0]) || IsUpper(w[0]))
    && forall i :: 1 <= i < |w| ==> IsLower(w[i])
  }

  lemma WordIsPlain(w: string)
    requires IsWord(w)
    ensures NoBoundary(w) && NoSeparator(w)
  {
    forall i | 0 <= i < |w| ensures !IsSeparator(w[i]) {
      LetterIsNotSeparator(w[i]);
    }
  }

  lemma LetterIsNotSeparator(c: char)
    requires IsLower(c) || IsUpper(c)
    ensures !IsSeparator(c)
  {
  }

  /** Two words, the second capitalised, are joined by `-` and lowered. */
  lemma KebabOfTwoWords(a: string, w: string)
    requires IsWord(a) && IsLower(a[|a| - 1])
    requires IsWord(w) && IsUpper(w[0])
    ensures Kebab(a + w) == LowerAscii(a) + "-" + LowerAscii(w)
  {
    WordIsPlain(a);
    WordIsPlain(w);
    KebabOfPlainWord(a);
    KebabAppendCapitalised(a, w);
  }

  /** Two words separated by one `_` are joined by `-` and lowered. */
  lemma KebabOfSnakeWords(a: string, w: string)
    requires IsWord(a) && IsWord(w)
    ensures Kebab(a + "_" + w) == LowerAscii(a) + "-" + LowerAscii(w)
  {
    WordIsPlain(a);
    WordIsPlain(w);
    KebabOfPlainWord(a);
    KebabAppendAfterSeparators(a, "_", w);
  }

  /* The examples the repository's unit tests check. */

  lemma KebabOfPascalCase()
    ensures Kebab("HelloWorld") == "hello-world"
  {
    PascalWords();
    KebabOfTwoWords("Hello", "World");
  }

  lemma KebabOfSnakeCase()
    ensures Kebab("hello_world") == "hello-world"
  {
    SnakeWords();
    KebabOfSnakeWords("hello", "world");
  }

  lemma KebabOfCamelCase()
    ensures Kebab("helloWorldTest") == "hello-world-test"
  {
    CamelParts();
    KebabOfHelloWorld();
    WordIsPlain("Test");
    KebabAppendCapitalised("helloWorld", "Test");
  }

  lemma KebabOfHelloWorld()
    ensures Kebab("helloWorld") == "hello-world"
  {
    CamelWords();
    KebabOfTwoWords("hello", "World");
  }

  /** `HelloWorld` is the word `Hello`, ending in a lower-case letter, followed
      by the capitalised word `World`; lowered and joined they spell
      `hello-world`. */
  lemma PascalWords()
    ensures IsWord("Hello") && IsLower("Hello"[4])
    ensures IsWord("World") && IsUpper("World"[0])
    ensures "Hello" + "World" == "HelloWorld"
    ensures LowerAscii("Hello") + "-" + LowerAscii("World") == "hello-world"
  {
  }

  /** `helloWorld` is `hello` followed by the capitalised word `World`. */
  lemma CamelWords()
    ensures IsWord("hello") && IsLower("hello"[4])
    ensures IsWord("World") && IsUpper("World"[0])
    ensures "hello" + "World" == "helloWorld"
    ensures LowerAscii("hello") + "-" + LowerAscii("World") == "hello-world"
  {
  }

  /** `hello_world` is two words around one `_`, lowering to `hello-world`. */
  lemma SnakeWords()
    ensures IsWord("hello") && IsWord("world")
    ensures "hello" + "_" + "world" == "hello_world"
    ensures LowerAscii("hello") + "-" + LowerAscii("world") == "hello-world"
  {
  }

  /** `helloWorldTest` is `helloWorld`, ending in a lower-case letter, followed
      by the capitalised word `Test`. */
  lemma CamelParts()
    ensures IsLower("helloWorld"[9])
    ensures IsWord("Test") && IsUpper("Test"[0])
    ensures "helloWorld" + "Test" == "helloWorldTest"
    ensures "hello-world" + "-" + LowerAscii("Test") == "hello-world-test"
  {
  }
}

=== FILE: templates.dfy ===
/**
 The file templates of the component generator's helper module. Each template
 is a JavaScript template literal: fixed text interleaved with the component's
 name, its kebab-case name and its type. A template is modelled as a list of
 pieces, and filling it concatenates the literal pieces with the values of the
 parameters its slots name. The literal text is split into pieces at the
 points where a promised substring starts or ends, so every promise is a
 window of whole pieces; adjacent literal pieces simply concatenate.
 */
module Templates {
  import opened Text

  /** The values a template literal interpolates. */
  datatype Param = Name | Kebab | Type | LowerName

  /** The arguments of a template function; a template ignores the parameters
      it has no slot for. */
  datatype Args = Args(name: string, kebab: string, componentType: string)

  function Value(p: Param, a: Args): string {
    match p
    case Name => a.name
    case Kebab => a.kebab
    case Type => a.componentType
    case LowerName => LowerAscii(a.name)
  }

  datatype Piece = Lit(text: string) | Slot(param: Param)

  type Template = seq<Piece>

  function Render(p: Piece, a: Args): string {
    match p
    case Lit(text) => text
    case Slot(param) => Value(param, a)
  }

  /** Interpolation: the pieces' texts, left to right. */
  function Fill(t: Template, a: Args): string {
    if |t| == 0 then "" else Render(t[0], a) + Fill(t[1..], a)
  }

  /* ---------------- Interpolation facts ---------------- */

  /** Filling distributes over concatenation of templates. */
  lemma {:induction false} FillAppend(t: Template, u: Template, a: Args)
    ensures Fill(t + u, a) == Fill(t, a) + Fill(u, a)
    decreases |t|
  {
    if |t| == 0 {
      assert t + u == u;
    } else {
      assert (t + u)[0] == t[0] && (t + u)[1..] == t[1..] + u;
      FillAppend(t[1..], u, a);
      AppendAssociative(Render(t[0], a), Fill(t[1..], a), Fill(u, a));
    }
  }

  lemma FillOne(p: Piece, a: Args)
    ensures Fill([p], a) == Render(p, a)
  {
    assert [p][1..] == [];
  }

  lemma FillCons(p: Piece, t: Template, a: Args)
    ensures Fill([p] + t, a) == Render(p, a) + Fill(t, a)
  {
    assert ([p] + t)[0] == p && ([p] + t)[1..] == t;
  }

  /** A literal, a slot and a literal fill to the slot's value between the two. */
  lemma FillThree(x: string, p: Param, y: string, a: Args)
    ensures Fill([Lit(x), Slot(p), Lit(y)], a) == x + Value(p, a) + y
  {
    FillOne(Lit(y), a);
    FillCons(Slot(p), [Lit(y)], a);
    assert [Slot(p), Lit(y)] == [Slot(p)] + [Lit(y)];
    FillCons(Lit(x), [Slot(p), Lit(y)], a);
    assert [Lit(x), Slot(p), Lit(y)] == [Lit(x)] + [Slot(p), Lit(y)];
  }

  /* ---------------- Which parameters a template shows ---------------- */

  /** Every slot of `t` names `p`. */
  predicate OnlySlot(t: Template, p: Param) {
    forall i | 0 <= i < |t| :: t[i].Slot? ==> t[i].param == p
  }

  function LitLength(t: Template): nat {
    if |t| == 0 then 0 else (if t[0].Lit? then |t[0].text| else 0) + LitLength(t[1..])
  }

  function SlotCount(t: Template): nat {
    if |t| == 0 then 0 else (if t[0].Slot? then 1 else 0) + SlotCount(t[1..])
  }

  /** A template with slots for one parameter only grows by the parameter's
      length at every slot. */
  lemma {:induction false} FillLength(t: Template, p: Param, a: Args)
    requires OnlySlot(t, p)
    ensures |Fill(t, a)| == LitLength(t) + SlotCount(t) * |Value(p, a)|
    decreases |t|
  {
    if |t| > 0 {
      var v, rest := Value(p, a), t[1..];
      assert OnlySlot(rest, p) by {
        forall i | 0 <= i < |rest| ensures rest[i].Slot? ==> rest[i].param == p {
          assert rest[i] == t[i + 1];
        }
      }
      FillLength(rest, p, a);
      var c := SlotCount(rest);
      if t[0].Slot? {
        assert |Fill(t, a)| == |v| + LitLength(rest) + c * |v|;
        assert (c + 1) * |v| == c * |v| + |v|;
      }
    }
  }

  /** The text in front of a template's first slot is fixed. */
  lemma FillLeadingText(t: Template, k: nat, a: Args)
    requires k <= |t| && SlotCount(t[..k]) == 0
    ensures |Fill(t[..k], a)| == LitLength(t[..k])
    ensures Fill(t, a) == Fill(t[..k], a) + Fill(t[k..], a)
  {
    assert OnlySlot(t[..k], Name) by {
      SlotFree(t[..k]);
    }
    FillLength(t[..k], Name, a);
    assert t == t[..k] + t[k..];
    FillAppend(t[..k], t[k..], a);
  }

  lemma {:induction false} SlotFree(t: Template)
    requires SlotCount(t) == 0
    ensures forall i | 0 <= i < |t| :: t[i].Lit?
    decreases |t|
  {
    if |t| > 0 {
      SlotFree(t[1..]);
      forall i | 1 <= i < |t| ensures t[i].Lit? {
        assert t[i] == t[1..][i - 1];
      }
    }
  }

  /** A template whose slots all show parameter `p`, and which shows it at
      least once, determines the value of `p`: two argument lists that fill it
      alike agree on `p`. */
  lemma SingleSlotDetermines(t: Template, k: nat, p: Param, a: Args, b: Args)
    requires OnlySlot(t, p)
    requires k < |t| && SlotCount(t[..k]) == 0 && t[k] == Slot(p)
    requires Fill(t, a) == Fill(t, b)
    ensures Value(p, a) == Value(p, b)
  {
    SlotValuesAlike(t, k, p, a, b);
    SlotValueAt(t, k, p, a);
    SlotValueAt(t, k, p, b);
  }

  /** The value of the first slot sits right after the text in front of it. */
  lemma SlotValueAt(t: Template, k: nat, p: Param, a: Args)
    requires k < |t| && SlotCount(t[..k]) == 0 && t[k] == Slot(p)
    ensures LitLength(t[..k]) + |Value(p, a)| <= |Fill(t, a)|
    ensures Fill(t, a)[LitLength(t[..k])..LitLength(t[..k]) + |Value(p, a)|] == Value(p, a)
  {
    FillLeadingText(t, k, a);
    assert t[k..] == [Slot(p)] + t[k + 1..];
    FillCons(Slot(p), t[k + 1..], a);
  }

  /** Two argument lists that fill a template with slots for `p` only, at
      least one of them, alike give `p` values of one length. */
  lemma SlotValuesAlike(t: Template, k: nat, p: Param, a: Args, b: Args)
    requires OnlySlot(t, p)
    requires k < |t| && SlotCount(t[..k]) == 0 && t[k] == Slot(p)
    requires Fill(t, a) == Fill(t, b)
    ensures |Value(p, a)| == |Value(p, b)|
  {
    assert SlotCount(t) > 0 by {
      SlotCountAppend(t[..k], t[k..]);
      assert t == t[..k] + t[k..];
    }
    FillLength(t, p, a);
    FillLength(t, p, b);
    ProductCancel(SlotCount(t), |Value(p, a)|, |Value(p, b)|);
  }

  lemma ProductCancel(c: int, x: int, y: int)
    requires c > 0 && c * x == c * y
    ensures x == y
  {
  }

  lemma {:induction false} SlotCountAppend(t: Template, u: Template)
    ensures SlotCount(t + u) == SlotCount(t) + SlotCount(u)
    decreases |t|
  {
    if |t| == 0 {
      assert t + u == u;
    } else {
      assert (t + u)[0] == t[0] && (t + u)[1..] == t[1..] + u;
      SlotCountAppend(t[1..], u);
    }
  }

  /* ---------------- Templates as lists of sections ---------------- */

  /** The pieces of all sections, in order. */
  function Concat(ts: seq<Template>): Template {
    if |ts| == 0 then [] else ts[0] + Concat(ts[1..])
  }

  /** Interpolation of a template given as sections. */
  function FillSections(ts: seq<Template>, a: Args): string {
    if |ts| == 0 then "" else Fill(ts[0], a) + FillSections(ts[1..], a)
  }

  /** Filling section by section is filling the concatenated pieces. */
  lemma {:induction false} FillSectionsConcat(ts: seq<Template>, a: Args)
    ensures FillSections(ts, a) == Fill(Concat(ts), a)
    decreases |ts|
  {
    if |ts| > 0 {
      FillSectionsConcat(ts[1..], a);
      FillAppend(ts[0], Concat(ts[1..]), a);
    }
  }

  lemma {:induction false} FillSectionsAppend(ts: seq<Template>, us: seq<Template>, a: Args)
    ensures FillSections(ts + us, a) == FillSections(ts, a) + FillSections(us, a)
    decreases |ts|
  {
    if |ts| == 0 {
      assert ts + us == us;
    } else {
      assert (ts + us)[0] == ts[0] && (ts + us)[1..] == ts[1..] + us;
      FillSectionsAppend(ts[1..], us, a);
      AppendAssociative(Fill(ts[0], a), FillSections(ts[1..], a), FillSections(us, a));
    }
  }

  /** Filling a template with one more section in the middle. */
  lemma FillSectionsInsert(ts: seq<Template>, m: Template, us: seq<Template>, a: Args)
    ensures FillSections(ts + us, a) == FillSections(ts, a) + FillSections(us, a)
    ensures FillSections(ts + ([m] + us), a) == FillSections(ts, a) + Fill(m, a) + FillSections(us, a)
  {
    FillSectionsAppend(ts, us, a);
    FillSectionsAppend(ts, [m] + us, a);
    assert ([m] + us)[0] == m && ([m] + us)[1..] == us;
    AppendAssociative(FillSections(ts, a), Fill(m, a), FillSections(us, a));
  }

  /** Every section is filled into a substring of the whole template. */
  lemma SectionShows(ts: seq<Template>, i: int, a: Args)
    requires 0 <= i < |ts|
    ensures Contains(FillSections(ts, a), Fill(ts[i], a))
  {
    var before, after := ts[..i], ts[i + 1..];
    assert ts == before + [ts[i]] + after;
    FillSectionsAppend(before + [ts[i]], after, a);
    FillSectionsAppend(before, [ts[i]], a);
    assert FillSections([ts[i]], a) == Fill(ts[i], a) by {
      assert [ts[i]][1..] == [];
    }
    ContainsMiddle(FillSections(before, a), Fill(ts[i], a), FillSections(after, a));
  }

  /** A section of literal text shows up in the filled template. */
  lemma ShowsText(ts: seq<Template>, i: int, x: string, a: Args)
    requires 0 <= i < |ts| && ts[i] == [Lit(x)]
    ensures Contains(FillSections(ts, a), x)
  {
    SectionShows(ts, i, a);
    FillOne(Lit(x), a);
  }

  /** A section holding one slot shows up with the texts around the slot. */
  lemma ShowsSlot(ts: seq<Template>, i: int, x: string, p: Param, y: string, a: Args)
    requires 0 <= i < |ts| && ts[i] == [Lit(x), Slot(p), Lit(y)]
    ensures Contains(FillSections(ts, a), x + Value(p, a) + y)
  {
    SectionShows(ts, i, a);
    FillThree(x, p, y, a);
  }

  /** The text of a template ends with its last two sections. */
  lemma LastSectionsEnd(ts: seq<Template>, a: Args)
    requires |ts| >= 2
    ensures IsSuffix(Fill(ts[|ts| - 2], a) + Fill(ts[|ts| - 1], a), FillSections(ts, a))
  {
    var k := |ts| - 2;
    var u := ts[k..];
    assert ts == ts[..k] + u;
    FillSectionsAppend(ts[..k], u, a);
    assert u[0] == ts[k] && u[1..][0] == ts[k + 1] && u[1..][1..] == [];
    assert FillSections(u[1..], a) == Fill(ts[k + 1], a) + FillSections(u[1..][1..], a);
    assert FillSections(u, a) == Fill(ts[k], a) + FillSections(u[1..], a);
  }

  /** A section holding two slots shows up with the texts around them. */
  lemma ShowsTwoSlots(ts: seq<Template>, i: int, x: string, p: Param, y: string, q: Param, z: string, a: Args)
    requires 0 <= i < |ts| && ts[i] == [Lit(x), Slot(p), Lit(y), Slot(q), Lit(z)]
    ensures Contains(FillSections(ts, a), x + Value(p, a) + y + Value(q, a) + z)
  {
    SectionShows(ts, i, a);
    FillFive(x, p, y, q, z, a);
  }

  lemma FillFive(x: string, p: Param, y: string, q: Param, z: string, a: Args)
    ensures Fill([Lit(x), Slot(p), Lit(y), Slot(q), Lit(z)], a)
         == x + Value(p, a) + y + Value(q, a) + z
  {
    var w := [Lit(x), Slot(p), Lit(y), Slot(q), Lit(z)];
    FillThree(y, q, z, a);
    assert w == [Lit(x), Slot(p)] + [Lit(y), Slot(q), Lit(z)];
    FillAppend([Lit(x), Slot(p)], [Lit(y), Slot(q), Lit(z)], a);
    FillOne(Slot(p), a);
    FillCons(Lit(x), [Slot(p)], a);
    assert [Lit(x), Slot(p)] == [Lit(x)] + [Slot(p)];
    var vp, vq := Value(p, a), Value(q, a);
    calc {
      Fill(w, a);
      (x + vp) + (y + vq + z);
      { AppendAssociative(x + vp, y + vq, z); AppendAssociative(x + vp, y, vq); }
      x + vp + y + vq + z;
    }
  }

  /** Every section shows parameter `p` only. */
  predicate SectionsOnlySlot(ts: seq<Template>, p: Param) {
    forall i | 0 <= i < |ts| :: OnlySlot(ts[i], p)
  }

  lemma {:induction false} OnlySlotConcat(ts: seq<Template>, p: Param)
    requires SectionsOnlySlot(ts, p)
    ensures OnlySlot(Concat(ts), p)
    decreases |ts|
  {
    if |ts| > 0 {
      var rest := ts[1..];
      assert SectionsOnlySlot(rest, p) by {
        forall i | 0 <= i < |rest| ensures OnlySlot(rest[i], p) {
          assert rest[i] == ts[i + 1];
        }
      }
      OnlySlotConcat(rest, p);
      var t := Concat(ts);
      forall i | 0 <= i < |t| && t[i].Slot? ensures t[i].param == p {
        if i < |ts[0]| {
          assert t[i] == ts[0][i];
        } else {
          assert t[i] == Concat(rest)[i - |ts[0]|];
        }
      }
    }
  }

  /** `ts` shows no parameter but `p`; its first section is literal text and
      its second has a slot for `p` after `j` literal pieces. */
  predicate ShowsOnly(ts: seq<Template>, j: nat, p: Param) {
    && SectionsOnlySlot(ts, p)
    && 2 <= |ts| && SlotCount(ts[0]) == 0
    && j < |ts[1]| && SlotCount(ts[1][..j]) == 0 && ts[1][j] == Slot(p)
  }

  /** Such a template determines `p`: its text is fixed up to the first slot,
      and its length tells how long the value of `p` is. */
  lemma SectionsDetermine(ts: seq<Template>, j: nat, p: Param, a: Args, b: Args)
    requires ShowsOnly(ts, j, p)
    requires FillSections(ts, a) == FillSections(ts, b)
    ensures Value(p, a) == Value(p, b)
  {
    var t := Concat(ts);
    var k := |ts[0]| + j;
    assert t == ts[0] + (ts[1] + Concat(ts[2..])) by {
      assert ts[1..][0] == ts[1] && ts[1..][1..] == ts[2..];
      assert Concat(ts[1..]) == ts[1] + Concat(ts[2..]);
    }
    assert t[..k] == ts[0] + ts[1][..j];
    SlotCountAppend(ts[0], ts[1][..j]);
    assert t[k] == Slot(p);
    OnlySlotConcat(ts, p);
    FillSectionsConcat(ts, a);
    FillSectionsConcat(ts, b);
    SingleSlotDetermines(t, k, p, a, b);
  }

  /* ---------------- The templates ---------------- */

  const ComponentSections: seq<Template> := [
    [Lit("import { Fragment, FunctionComponent, h } from 'preact';\nimport { ")],
    [Slot(Name), Lit("Props } from './types'\n\nconst "), Slot(Name), Lit(": ")],
    [Lit("FunctionComponent<"), Slot(Name), Lit("Props>")],
    [Lit(" = ({ x }: "), Slot(Name), Lit("Props) => {\n    return (\n        ")],
    [Lit("<Fragment></Fragment>")],
    [Lit("\n    );\n};\n\n")],
    [Lit("export default "), Slot(Name), Lit(";")],
    [Lit("\n")]
  ]

  /** The Preact function component `N.tsx`: typed by `NProps`, rendering an
      empty fragment, and exported as the default. */
  function ComponentTemplate(name: string): (r: string)
    ensures Contains(r, "FunctionComponent<" + name + "Props>")
    ensures Contains(r, "<Fragment></Fragment>")
    ensures Contains(r, "export default " + name + ";")
    ensures IsSuffix("export default " + name + ";\n", r)
  {
    var a := Args(name, "", "");
    ComponentEnding(name);
    ShowsSlot(ComponentSections, 2, "FunctionComponent<", Name, "Props>", a);
    ShowsText(ComponentSections, 4, "<Fragment></Fragment>", a);
    ShowsSlot(ComponentSections, 6, "export default ", Name, ";", a);
    FillSections(ComponentSections, a)
  }

  /** The component file ends with its default export and a newline. */
  lemma ComponentEnding(name: string)
    ensures IsSuffix("export default " + name + ";\n", FillSections(ComponentSections, Args(name, "", "")))
  {
    var a := Args(name, "", "");
    LastSectionsEnd(ComponentSections, a);
    FillThree("export default ", Name, ";", a);
    FillOne(Lit("\n"), a);
    assert "export default " + name + ";" + "\n" == "export default " + name + ";\n";
  }

  /** Different component names give different component files. */
  lemma ComponentTemplateInjective(n: string, m: string)
    requires ComponentTemplate(n) == ComponentTemplate(m)
    ensures n == m
  {
    ComponentSectionsShowName();
    SectionsDetermine(ComponentSections, 0, Name, Args(n, "", ""), Args(m, "", ""));
  }

  lemma ComponentSectionsShowName()
    ensures ShowsOnly(ComponentSections, 0, Name)
  {
  }

  /** The build output directory, where package.json's entry points live. */
  const PackageMain := "lib/index.js"
  const PackageTypings := "lib/index.d.ts"

  /** `.gitignore` of a generated component: only its build output. */
  function GitIgnoreTemplate(): (r: string)
    ensures r == "lib"
    ensures |r| > 0 && forall i | 0 <= i < |r| :: r[i] != '/'
    ensures IsPrefix(r + "/", PackageMain) && IsPrefix(r + "/", PackageTypings)
  {
    FillOne(Lit("lib"), Args("", "", ""));
    Fill([Lit("lib")], Args("", "", ""))
  }

  /** The npm package name under which a component is published. */
  function PackageName(kebab: string): string {
    PackageScope + kebab
  }

  const PackageScope := "@no-gravity-elements/"

  const PackageMetadata := ",\n    \"version\": \"1.0.0\",\n    \"description\": \"No Gravity Element\",\n    \"author\": \"No Gravity Team\",\n    \"private\": false,\n    \"homepage\": \"https://github.com/no-gravity-company/no-gravity-elements#readme\",\n    \"license\": \"ISC\",\n    "
  const PackageDirectories := ",\n    \"directories\": {\n      \"lib\": \"lib\"\n    },\n"

  /** package.json up to and including its "directories" field. */
  const PackageHead: seq<Template> := [
    [Lit("{\n    ")],
    [Lit("\"name\": \"" + PackageScope), Slot(Kebab), Lit("\"")],
    [Lit(PackageMetadata)],
    [Lit("\"main\": \"" + PackageMain + "\"")],
    [Lit(",\n    ")],
    [Lit("\"typings\": \"" + PackageTypings + "\"")],
    [Lit(PackageDirectories)]
  ]

  /** The "files" field, which only this module's package.json carries. */
  const PackageFiles: Template := [Lit(PackageFilesField)]
  const PackageFilesField := "    \"files\": [\n      \"lib/index.js\",\n      \"lib/index.js.map\",\n      \"types/index.d.ts\"\n    ],\n"

  const BuildScript := "tsc --jsx react --emitDeclarationOnly --esModuleInterop --module ESNext --target ESNext --moduleResolution node --declaration --declarationDir ./lib/types src/*.ts && esbuild src/index.ts --bundle --outfile=lib/index.js --platform=node --target=es2018 --minify --sourcemap --external:react --external:react-dom"

  const PackageRepository := "    \"repository\": {\n      \"type\": \"git\",\n      \"url\": \"git+https://github.com/no-gravity-company/no-gravity-elements.git\"\n    },\n    \"scripts\": {\n      \"build\": \""
  const PackageEnd := "\",\n      \"publish-component\": \"yarn publish --access=public\"\n    },\n    \"bugs\": {\n      \"url\": \"https://github.com/no-gravity-company/no-gravity-elements/issues\"\n    }\n  }\n    "

  /** package.json from its "repository" field to the end. */
  const PackageTail: seq<Template> := [
    [Lit(PackageRepository)],
    [Lit(BuildScript)],
    [Lit(PackageEnd)]
  ]

  const PackageJsonSections := PackageHead + ([PackageFiles] + PackageTail)

  /** package.json of a component: published under its kebab-case name, with
      the bundled entry point and its declarations in the build output. */
  function PackageJsonTemplate(kebab: string): (r: string)
    ensures Contains(r, "\"name\": \"" + PackageName(kebab) + "\"")
    ensures Contains(r, "\"main\": \"" + PackageMain + "\"")
    ensures Contains(r, "\"typings\": \"" + PackageTypings + "\"")
  {
    var a := Args("", kebab, "");
    PackageHeadShows([PackageFiles] + PackageTail, a);
    FillSections(PackageJsonSections, a)
  }

  /** What a package.json made of `PackageHead` and further sections shows. */
  lemma PackageHeadShows(rest: seq<Template>, a: Args)
    ensures Contains(FillSections(PackageHead + rest, a), "\"name\": \"" + PackageName(a.kebab) + "\"")
    ensures Contains(FillSections(PackageHead + rest, a), "\"main\": \"" + PackageMain + "\"")
    ensures Contains(FillSections(PackageHead + rest, a), "\"typings\": \"" + PackageTypings + "\"")
  {
    var ts := PackageHead + rest;
    assert ts[1] == PackageHead[1] && ts[3] == PackageHead[3] && ts[5] == PackageHead[5];
    PackageNameShows(ts, a);
    ShowsText(ts, 3, "\"main\": \"" + PackageMain + "\"", a);
    ShowsText(ts, 5, "\"typings\": \"" + PackageTypings + "\"", a);
  }

  lemma PackageNameShows(ts: seq<Template>, a: Args)
    requires 1 < |ts| && ts[1] == [Lit("\"name\": \"" + PackageScope), Slot(Kebab), Lit("\"")]
    ensures Contains(FillSections(ts, a), "\"name\": \"" + PackageName(a.kebab) + "\"")
  {
    ShowsSlot(ts, 1, "\"name\": \"" + PackageScope, Kebab, "\"", a);
    AppendAssociative("\"name\": \"", PackageScope, a.kebab);
  }

  /** package.json is the head, the "files" field and the tail. */
  lemma PackageJsonSplits(kebab: string)
    ensures PackageJsonTemplate(kebab)
         == FillSections(PackageHead, Args("", kebab, "")) + PackageFilesField
          + FillSections(PackageTail, Args("", kebab, ""))
  {
    var a := Args("", kebab, "");
    FillSectionsInsert(PackageHead, PackageFiles, PackageTail, a);
    FillOne(Lit(PackageFilesField), a);
  }

  /** Different kebab-case names give different package.json files. */
  lemma PackageJsonTemplateInjective(k: string, l: string)
    requires PackageJsonTemplate(k) == PackageJsonTemplate(l)
    ensures k == l
  {
    PackageShowsKebabOnly([PackageFiles] + PackageTail);
    SectionsDetermine(PackageJsonSections, 1, Kebab, Args("", k, ""), Args("", l, ""));
  }

  /** Every package.json template shows the kebab-case name only. */
  lemma PackageShowsKebabOnly(rest: seq<Template>)
    requires SectionsOnlySlot(rest, Kebab)
    ensures ShowsOnly(PackageHead + rest, 1, Kebab)
  {
    assert ShowsOnly(PackageHead, 1, Kebab);
    var ts := PackageHead + rest;
    assert SectionsOnlySlot(ts, Kebab) by {
      forall i | 0 <= i < |ts| ensures OnlySlot(ts[i], Kebab) {
        if i >= |PackageHead| {
          assert ts[i] == rest[i - |PackageHead|];
        }
      }
    }
  }

  const TypesSections: seq<Template> := [
    [Lit("export ")],
    [Lit("interface "), Slot(Name), Lit("Props")],
    [Lit(" {\n    x: string;\n}\n    ")]
  ]

  /** `types/index.ts`: declares the component's props interface. */
  function TypesTemplate(name: string): (r: string)
    ensures Contains(r, "interface " + name + "Props")
  {
    var a := Args(name, "", "");
    ShowsSlot(TypesSections, 1, "interface ", Name, "Props", a);
    FillSections(TypesSections, a)
  }

  /** Different component names give different props declarations. */
  lemma TypesTemplateInjective(n: string, m: string)
    requires TypesTemplate(n) == TypesTemplate(m)
    ensures n == m
  {
    TypesSectionsShowName();
    SectionsDetermine(TypesSections, 1, Name, Args(n, "", ""), Args(m, "", ""));
  }

  lemma TypesSectionsShowName()
    ensures ShowsOnly(TypesSections, 1, Name)
  {
  }

  const StorySections: seq<Template> := [
    [Lit("import { Meta, StoryObj } from '@storybook/web-components';\nimport { html } from 'lit-html';\n\nimport { "),
     Slot(Name), Lit("Props } from '@"), Slot(Type), Lit("/"), Slot(Name), Lit("/types';\n\n")],
    [Lit("import '" + PackageScope), Slot(Kebab), Lit("';")],
    [Lit("\n\ntype CustomArgs = "), Slot(Name),
     Lit("Props & { text: string };\n\nconst meta: Meta<CustomArgs> = {\n  ")],
    [Lit("title: '"), Slot(Type), Lit("/"), Slot(Name), Lit("'")],
    [Lit(",\n  ")],
    [Lit("component: 'nge-"), Slot(Kebab), Lit("'")],
    [Lit(",\n  parameters: {\n    webComponents: {\n      ")],
    [Lit("tagName: 'nge-"), Slot(Kebab), Lit("'")],
    [Lit(StoryArgTypes)],
    [Lit("<nge-"), Slot(Kebab), Lit(" x=")],
    [Lit("${x}>${text}</nge-"), Slot(Kebab), Lit(StoryEnd)]
  ]

  const StoryArgTypes := ",\n    },\n  },\n  argTypes: {\n    x: {\n      description: 'Custom prop text',\n      control: { type: 'text' },\n    },\n    text: {\n      description: 'Custom text',\n      control: { type: 'text' },\n    },\n  },\n  render: ({ x, text }) => html` "
  const StoryEnd := "> `,\n};\n\nexport default meta;\ntype Story = StoryObj<CustomArgs>;\n\nexport const Default: Story = {\n  args: {\n    text: 'Text',\n    x: 'props'\n  },\n};\n"

  /** `N.stories.tsx`: a Storybook story titled by type and name that imports
      the component's published package and renders its custom element. */
  function StoryTemplate(name: string, kebab: string, componentType: string): (r: string)
    ensures Contains(r, "import '" + PackageName(kebab) + "';")
    ensures Contains(r, "title: '" + componentType + "/" + name + "'")
    ensures Contains(r, "component: 'nge-" + kebab + "'")
    ensures Contains(r, "tagName: 'nge-" + kebab + "'")
    ensures Contains(r, "<nge-" + kebab + " x=")
  {
    var a := Args(name, kebab, componentType);
    ShowsSlot(StorySections, 1, "import '" + PackageScope, Kebab, "';", a);
    AppendAssociative("import '", PackageScope, kebab);
    ShowsTwoSlots(StorySections, 3, "title: '", Type, "/", Name, "'", a);
    ShowsSlot(StorySections, 5, "component: 'nge-", Kebab, "'", a);
    ShowsSlot(StorySections, 7, "tagName: 'nge-", Kebab, "'", a);
    ShowsSlot(StorySections, 9, "<nge-", Kebab, " x=", a);
    FillSections(StorySections, a)
  }

  const UnitTestsSections: seq<Template> := [
    [Lit("import { h } from 'preact';\nimport { shallow } from 'enzyme';\n\nimport "),
     Slot(Name), Lit(" from '@"), Slot(Type), Lit("/"), Slot(Name), Lit("/"), Slot(Name), Lit("';\n\n")],
    [Lit("describe('"), Slot(Name), Lit("'")],
    [Lit(", () => {\n  it('should match the snapshot', () => {\n    const wrapper = ")],
    [Lit("shallow(<"), Slot(Name), Lit(" x='test'>Test</"), Slot(Name), Lit(">)")],
    [Lit(";\n    expect(wrapper).toMatchSnapshot();\n  });\n});")]
  ]

  /** The unit-test file: a snapshot test of the shallow-rendered component. */
  function UnitTestsTemplate(name: string, componentType: string): (r: string)
    ensures Contains(r, "describe('" + name + "'")
    ensures Contains(r, "shallow(<" + name + " x='test'>Test</" + name + ">)")
  {
    var a := Args(name, "", componentType);
    ShowsSlot(UnitTestsSections, 1, "describe('", Name, "'", a);
    ShowsTwoSlots(UnitTestsSections, 3, "shallow(<", Name, " x='test'>Test</", Name, ">)", a);
    FillSections(UnitTestsSections, a)
  }

  const IntegrationTestsSections: seq<Template> := [
    [Lit("/// <reference types=\"cypress\" />\n\n")],
    [Lit("context('"), Slot(Name), Lit("'")],
    [Lit(", () => {\n    beforeEach(() => {\n        cy.visit('/iframe.html?args=&")],
    [Lit("id="), Slot(Type), Lit("-"), Slot(LowerName), Lit("--default")],
    [Lit("&viewMode=story');\n    });\n\n    it('should check if ")],
    [Lit("<nge-"), Slot(Kebab), Lit(">")],
    [Lit(" is present in the dom', () => {\n        ")],
    [Lit("cy.get('nge-"), Slot(Kebab), Lit("')")],
    [Lit(".should('be.visible');\n    });\n});\n    ")]
  ]

  /** The Cypress integration test: visits the story whose id is made of the
      type and the lower-cased name, and expects the custom element there. */
  function IntegrationTestsTemplate(name: string, kebab: string, componentType: string): (r: string)
    ensures Contains(r, "context('" + name + "'")
    ensures Contains(r, "id=" + componentType + "-" + LowerAscii(name) + "--default")
    ensures Contains(r, "<nge-" + kebab + ">")
    ensures Contains(r, "cy.get('nge-" + kebab + "')")
  {
    var a := Args(name, kebab, componentType);
    ShowsSlot(IntegrationTestsSections, 1, "context('", Name, "'", a);
    ShowsTwoSlots(IntegrationTestsSections, 3, "id=", Type, "-", LowerName, "--default", a);
    ShowsSlot(IntegrationTestsSections, 5, "<nge-", Kebab, ">", a);
    ShowsSlot(IntegrationTestsSections, 7, "cy.get('nge-", Kebab, "')", a);
    FillSections(IntegrationTestsSections, a)
  }

  const ScssSections: seq<Template> := [
    [Lit("@import")],
    [Lit(" '../../../stylesheets/base/variables';\n")],
    [Lit(":host")],
    [Lit(" {\n\n}\n")]
  ]

  /** The component stylesheet: imports the shared variables and styles the
      shadow host. */
  function ScssTemplate(): (r: string)
    ensures Contains(r, "@import") && Contains(r, ":host")
  {
    var a := Args("", "", "");
    ShowsText(ScssSections, 0, "@import", a);
    ShowsText(ScssSections, 2, ":host", a);
    FillSections(ScssSections, a)
  }
}

=== FILE: text.dfy ===
/**
 Character classes and substring facts shared by the name deriver, the
 templates and the bundler helpers. Strings are `seq<char>`; only the ASCII
 letters and the fixed whitespace set of the JavaScript `\s` class matter here.
 */
module Text {

  /** The `[a-z]` character class of a JavaScript regular expression. */
  predicate IsLower(c: char) {
    'a' <= c <= 'z'
  }

  /** The `[A-Z]` character class of a JavaScript regular expression. */
  predicate IsUpper(c: char) {
    'A' <= c <= 'Z'
  }

  /** The JavaScript `\s` class: ASCII blanks, the Unicode space separators,
      the line and paragraph separators and the byte-order mark. */
  const Whitespace: set<char> := {
    ' ', '\t', '\n', '\r', '\U{000B}', '\U{000C}',
    '\U{00A0}', '\U{1680}',
    '\U{2000}', '\U{2001}', '\U{2002}', '\U{2003}', '\U{2004}', '\U{2005}',
    '\U{2006}', '\U{2007}', '\U{2008}', '\U{2009}', '\U{200A}',
    '\U{2028}', '\U{2029}', '\U{202F}', '\U{205F}', '\U{3000}', '\U{FEFF}'
  }

  predicate IsWhitespace(c: char) {
    c in Whitespace
  }

  /** The `[\s_]` character class. */
  predicate IsSeparator(c: char) {
    IsWhitespace(c) || c == '_'
  }

  /** Lower-cases one ASCII upper-case letter; every other character is kept. */
  function LowerChar(c: char): (d: char)
    ensures !IsUpper(d)
    ensures IsUpper(c) ==> IsLower(d) && d as int == c as int + 32
    ensures !IsUpper(c) ==> d == c
  {
    if IsUpper(c) then (c as int + 32) as char else c
  }

  /** Lower-cases every ASCII letter of `s` (String.prototype.toLowerCase
      restricted to ASCII). */
  function LowerAscii(s: string): (r: string)
    ensures |r| == |s|
    ensures forall i :: 0 <= i < |s| ==> r[i] == LowerChar(s[i])
  {
    seq(|s|, i requires 0 <= i < |s| => LowerChar(s[i]))
  }

  predicate NoUpper(s: string) {
    forall i :: 0 <= i < |s| ==> !IsUpper(s[i])
  }

  predicate NoSeparator(s: string) {
    forall i :: 0 <= i < |s| ==> !IsSeparator(s[i])
  }

  /** Lowering removes every upper-case letter, and it is the identity exactly
      on the strings that had none. */
  lemma LowerAsciiFixedPoints(s: string)
    ensures NoUpper(LowerAscii(s))
    ensures LowerAscii(s) == s <==> NoUpper(s)
  {
    if LowerAscii(s) == s {
      assert NoUpper(s) by {
        forall i | 0 <= i < |s| ensures !IsUpper(s[i]) {
          assert s[i] == LowerAscii(s)[i];
        }
      }
    }
  }

  /** Both character properties hold of a concatenation exactly when they
      hold of each part. */
  lemma PlainAppend(a: string, b: string)
    ensures NoUpper(a + b) <==> NoUpper(a) && NoUpper(b)
    ensures NoSeparator(a + b) <==> NoSeparator(a) && NoSeparator(b)
  {
    var s := a + b;
    assert forall i :: 0 <= i < |a| ==> s[i] == a[i];
    assert forall i :: 0 <= i < |b| ==> s[|a| + i] == b[i];
  }

  lemma AppendAssociative<T>(a: seq<T>, b: seq<T>, c: seq<T>)
    ensures a + (b + c) == (a + b) + c
  {
  }

  /** `s` is a prefix of `t`. */
  predicate IsPrefix<T(==)>(s: seq<T>, t: seq<T>) {
    |s| <= |t| && s == t[..|s|]
  }

  /** `s` is a suffix of `t`. */
  predicate IsSuffix<T(==)>(s: seq<T>, t: seq<T>) {
    |s| <= |t| && s == t[|t| - |s|..]
  }

  /** `sub` occurs in `s` starting at index `i`. */
  predicate OccursAt(s: string, sub: string, i: int) {
    0 <= i <= |s| - |sub| && s[i..i + |sub|] == sub
  }

  /** `sub` occurs in `s` (String.prototype.includes). */
  predicate Contains(s: string, sub: string) {
    exists i | 0 <= i <= |s| - |sub| :: OccursAt(s, sub, i)
  }

  lemma ContainsAt(s: string, sub: string, i: int)
    requires OccursAt(s, sub, i)
    ensures Contains(s, sub)
  {
  }

  /** The middle piece of a concatenation occurs in it. */
  lemma ContainsMiddle(a: string, m: string, b: string)
    ensures Contains(a + m + b, m)
  {
    assert (a + m + b)[|a|..|a| + |m|] == m;
    ContainsAt(a + m + b, m, |a|);
  }
}
